=== FILE: README.md ===
# Placement and storage core of the distribution key-value store

This project models, in Dafny, the part of the `distribution` package that
decides where an object lives and keeps it there:

- **Identifiers and placement** (`distribution/util/id.js`):
  - content addresses (`getID`), node ids (`getNID`, `getSID`) and `idToNum`;
  - the three placement functions: naive modulo placement (`naiveHash`),
    the consistent-hashing ring (`consistentHash`) and rendezvous hashing
    (`rendezvousHash`).
- **In-memory stores**:
  - the process-wide map of `distribution/local/mem.js`;
  - the per-group maps of `distribution/all/mem.js`.
- **File-backed stores**:
  - the single-directory store of `distribution/local/store.js`;
  - the per-group store of `distribution/all/store.js`, including `reconf`.
    `reconf` lists a group's files, selects the keys whose naive-hash owner
    differs between the old and the new node list, and relocates them one
    at a time.

## How it is modelled

- **Values.** JavaScript values are the datatype `Js.Value`. Callbacks
  become a returned `Js.Reply`, which holds the error argument and the
  value.
- **Hashing.** SHA-256 and `JSON.stringify` are the two functions of an
  `Id.Hasher`. Every result holds for every choice of them, so nothing
  assumes the stringification is canonical.
- **`parseInt(s, 16)`** is the value of the longest leading run of hex
  digits, or `None` for `NaN` (`Hex.ParseHex`). Ring and rendezvous
  positions take the first sixteen characters, so a position is below 2^64.
- **Sorting.**
  - JavaScript's default `sort` on strings is modelled as an insertion sort
    under lexicographic order (`StringSort`). Only its result matters: the
    sorted permutation is proved unique, so any sorting algorithm gives it.
  - The stable comparator sort of `consistentHash` sorts by (position,
    original index) (`Ring.SortByNum`).
- **State.**
  - A JavaScript `Map` is `JsMap.JsMap`: a map plus its insertion order.
  - A directory is a map from file name to stored value (`FileStore.Dir`).
  - A disk is a map from group id to directory (`AllStore.Disk`).
  - Each operation returns the new state instead of mutating a global.
- **The environment.**
  - The file system can fail any call with an error code. This arrives
    as a `Fault` parameter, or for `reconf` as a function from (call, key)
    to `Fault`.
  - The result of `readdir` (its order, or its failure) is a `Listing`
    parameter.
- **Behaviours kept as the code has them**, although a reader may not
  expect them:
  - Rendezvous ties go to the earliest member in list order.
  - Relocation deletes a key's file before writing it back, so a failed
    write loses the file.
  - The group store's listing passes `{}` in the error position.
  - Content addresses hash the output of `JSON.stringify`, which depends
    on the order of an object's fields.

Among the proved results:

- **Naive placement.** `naiveHash` picks the sorted member list indexed by
  the key modulo its length, and does not depend on member order.
- **Consistent hashing.** `consistentHash` returns exactly the ring
  successor of the key: the first member past the key's position, in
  position order with ties by list order, wrapping to the first member.
- **Rendezvous hashing.** `rendezvousHash` returns `null` exactly for an
  empty list. Otherwise it returns the first member when that member's
  score is `NaN`, and else the earliest member with the highest finite
  score. With finite scores, removing any other member keeps the owner.
- **In-memory stores.** They return what was put, under the key `put`
  chose. In both stores, deleting a freshly put new key restores the store
  exactly, iteration order included.
- **File stores.**
  - Sanitization is idempotent.
  - Two keys share a file exactly when they agree on every alphanumeric
    position and have non-alphanumeric characters in the same places.
  - In the group store, `get` after `put` returns the value.
  - In the local store the same holds for every key except an object with
    a truthy `key` field. `put` writes such a key under `[object Object]`,
    but `get` reads the file of its field, so `get({key: "a"})` after
    `put(v, {key: "a"})` reports "Key not found".
  - A key whose `String` is empty names the store directory itself, so
    `put`, `get` and `del` on it fail with `EISDIR`.
- **`reconf`.**
  - Selection throws when at least one key is listed and a node is `null`
    or `undefined`, or a key's content address does not start with a hex digit. The reason
    follows the order in which the code evaluates them.
  - It completes exactly when every selected key can be read, deleted and
    written back.
  - A completed run leaves the disk as it was, because each key is written
    back under its own name in the same directory.
  - Otherwise it halts at the first key that cannot be relocated, in the
    call whose fault stops it. That key's file is lost exactly when its
    `put` failed after a successful delete. A halt at `get` or `del`
    leaves the disk as it was.
  - On any failure the callback is never called.

## Model

| member | source | states |
|---|---|---|
| Id.GetID | distribution/util/id.js:5-9 | the content address is the SHA-256 digest of the object's JSON text; both primitives are parameters, so every result holds for any choice of them |
| Id.GetNID | distribution/util/id.js:12-15 | `getNID` throws exactly for `null` and `undefined`, whose `ip` cannot be read, and otherwise hashes the node's address object |
| Id.NodeKey | distribution/util/id.js:12-13 | the object hashed for a node has exactly two fields, carrying the node's `ip` and `port` |
| Id.NidDependsOnlyOnAddress | distribution/util/id.js:12-15 | two nodes, neither `null` nor `undefined`, with the same `ip` and `port` get the same NID, whatever other fields they carry |
| Id.GetSID | distribution/util/id.js:18-20 | `getSID` throws exactly when `getNID` does; otherwise the SID is a prefix of the NID, five characters long or the whole NID when shorter |
| Id.IdToNum | distribution/util/id.js:23-27 | `idToNum` throws exactly when the id is empty or does not start with a hex digit; an all-hex id yields its hexadecimal value |
| Id.NidsOf | distribution/all/store.js:120-123 | mapping nodes to NIDs throws exactly when some node is `null` or `undefined`; otherwise it gives one entry per node, in node order, each that node's NID |
| Id.NaiveHash | distribution/util/id.js:29-32 | `naiveHash` sorts the members and indexes them by the key's number modulo their count; its properties are stated by the lemmas below |
| Id.NaiveHashOwner | distribution/util/id.js:29-32 | `naiveHash` throws exactly when `idToNum` does; an empty list gives `undefined`; otherwise the owner is a member, namely the sorted list at index key mod length |
| Id.NaiveHashIgnoresOrder | distribution/util/id.js:29-32 | any two orderings of the same members give the same owner |
| Id.NaiveHashInPlace | distribution/util/id.js:29-32 | a call of `naiveHash` as its caller sees it: the owner together with the caller's array after the in-place sort |
| Id.NaiveHashSortsArgument | distribution/util/id.js:29-32 | after the call the caller's array is a sorted permutation of what it held, unchanged when already sorted, and the owner is that array's element at the key modulo its length |
| Hex.ParseHex | distribution/util/id.js:24 | `parseInt(s, 16)` is `NaN` exactly when `s` is empty or starts with a non-hex character; otherwise it is the value of the longest all-hex prefix, below 16 to the length of `s` |
| Hex.HexPrefixLength | distribution/util/id.js:24 | the scanned prefix is all hex and is followed by a non-hex character or the end of the string |
| Hex.LongestPrefixUnique | distribution/util/id.js:24 | there is only one maximal all-hex prefix, so the parsed value is well defined |
| Hex.Take16 | distribution/util/id.js:35-37 | `substring(0, 16)` is a prefix of the id, of length sixteen or the whole id when shorter |
| Hex.Position | distribution/util/id.js:35-37 | every ring position is below 2^64 |
| StringSort.Sort | distribution/util/id.js:30 | the default sort returns a lexicographically sorted permutation of its input |
| StringSort.SortedUnique | distribution/util/id.js:30 | two sorted permutations of the same strings are equal, so the sorted order is unique |
| StringSort.SortIgnoresOrder | distribution/util/id.js:30 | sorting two permutations of one list gives the same list |
| StringSort.LexLeTotal | distribution/util/id.js:30 | the string order compares every pair of strings |
| StringSort.LexLeAntisymmetric | distribution/util/id.js:30 | strings ordered both ways are equal |
| StringSort.LexLeTransitive | distribution/util/id.js:30 | the string order is transitive |
| Ring.Combined | distribution/util/id.js:35-40 | the combined list has the members followed by the key, one point each, with distinct original indices |
| Ring.SortByNum | distribution/util/id.js:41 | the stable sort by position returns a permutation ascending by (position, original index) |
| Ring.FindIndex | distribution/util/id.js:44 | `findIndex` returns the first index whose id equals the key, or -1 exactly when none does |
| Ring.NextIndex | distribution/util/id.js:45 | the index after the key wraps around and stays inside the ring |
| Ring.ConsistentHash | distribution/util/id.js:34-49 | with no members the key itself is returned; otherwise the result is the key or a member |
| Ring.RingSuccessorUnique | distribution/util/id.js:34-49 | at most one member is the key's ring successor |
| Ring.ConsistentHashIsRingSuccessor | distribution/util/id.js:34-49 | for a key that is not itself a member, `consistentHash` returns the member that is the key's ring successor: the first member past the key's position, or the first member of the ring when none is past it |
| Rendezvous.Scores | distribution/util/id.js:56-62 | a definition: the members' scores in list order, each the `parseInt` of the first sixteen hex characters of the hash of key followed by member, or `NaN` |
| Rendezvous.RendezvousHash | distribution/util/id.js:52-72 | the result is `null` exactly for an empty list; otherwise it is the winning member: the first member when its score is `NaN`, else the earliest member with the highest finite score |
| Rendezvous.FirstLeads | distribution/util/id.js:65-67 | after the first member the first member leads |
| Rendezvous.Overtakes | distribution/util/id.js:65-67 | a strictly higher finite score takes the lead |
| Rendezvous.StaysAhead | distribution/util/id.js:65-68 | a score that is not strictly higher, including `NaN` on either side, leaves the leader in place |
| Rendezvous.WinnerUnique | distribution/util/id.js:52-72 | at most one member wins |
| Rendezvous.ScoresWithout | distribution/util/id.js:56-62 | removing a member removes exactly its score and leaves the others' scores unchanged |
| Rendezvous.WinnerStableUnderRemoval | distribution/util/id.js:52-72 | with finite scores, removing a losing member keeps the winner winning |
| Rendezvous.OwnerSurvivesRemoval | distribution/util/id.js:52-72 | with finite scores, removing a member other than the owner leaves the owner unchanged |
| Js.Truthy | distribution/local/mem.js:15 | the values `!key` treats as missing are exactly `undefined`, `null`, `false`, `0` and the empty string |
| Js.ToString | distribution/local/store.js:33 | `String(key)`: strings as they are, numbers in decimal, arrays joined by commas with `null` and `undefined` elements empty, every object as `[object Object]` |
| Js.NatToDecimal | distribution/local/store.js:33 | the decimal digits of a number denote that number, and only `0` starts with a zero |
| JsMap.Empty | distribution/all/mem.js:5 | a new map is well formed and holds nothing |
| JsMap.Set | distribution/local/mem.js:18 | `set` adds the key, stores the value and keeps every other entry; a new key goes at the end of the iteration order and an existing key keeps its place |
| JsMap.Delete | distribution/local/mem.js:37 | `delete` removes exactly the key and keeps every other entry; deleting an absent key changes nothing |
| JsMap.Remove | distribution/local/mem.js:37 | removing a key from the iteration order keeps the other keys and loses exactly one element when the key was there |
| JsMap.DeleteUndoesSet | distribution/local/mem.js:18-37 | deleting a key that `set` just added restores the map, iteration order included |
| JsMap.Keys | distribution/local/mem.js:25 | `Array.from(map.keys())` lists each key of the map exactly once |
| JsMap.KeyCount | distribution/local/mem.js:25 | the iteration order has one entry per key |
| LocalMem.Put | distribution/local/mem.js:13-20 | a falsy key is replaced by the value's content address; the value is stored under the key used, other entries are kept, and the callback receives the value |
| LocalMem.Get | distribution/local/mem.js:22-32 | `null` lists every key once with no error; a stored key returns its value; a missing key gives "Key not found" and `null` |
| LocalMem.Del | distribution/local/mem.js:34-42 | a stored key is removed and its value returned; a missing key gives "Key not found" and changes nothing |
| LocalMem.PutThenGet | distribution/local/mem.js:13-32 | after a put under a truthy key, a get of that key returns the value |
| LocalMem.PutContentAddressed | distribution/local/mem.js:13-32 | after a put with a falsy key, a get of the value's content address returns the value |
| LocalMem.DelUndoesPut | distribution/local/mem.js:13-42 | deleting a freshly put new key restores the store exactly, iteration order included, and returns the value |
| AllMem.CreateStorageService | distribution/all/mem.js:4-5 | each service starts with its own empty map |
| AllMem.Put | distribution/all/mem.js:9-15 | only a `null` key is replaced by the content address; the value is stored under the key used and the callback receives it |
| AllMem.Get | distribution/all/mem.js:17-28 | `null` lists every key once but with `{}` as the error; a stored key returns its value; a missing key gives "Key not found" |
| AllMem.Del | distribution/all/mem.js:30-38 | a stored key is removed and its value returned; a missing key gives "Key not found" and changes nothing |
| AllMem.FalsyKeyStoredVerbatim | distribution/all/mem.js:9-28 | a falsy key other than `null` (`""`, `0`, `false`, `undefined`) is used as the key itself, and a get of it returns the value |
| AllMem.DelTwice | distribution/all/mem.js:30-38 | a second delete of the same key reports "Key not found" |
| AllMem.DelUndoesPut | distribution/all/mem.js:9-38 | deleting a freshly put new non-null key restores the service's map exactly, iteration order included, and returns the value |
| FileStore.SanitizeKey | distribution/local/store.js:31-34 | `sanitizeKey` gives a sanitized name as long as `String(key)`, empty exactly when that string is |
| FileStore.Sanitize | distribution/local/store.js:31-34 | sanitizing keeps the length, keeps every ASCII letter and digit and turns every other character into `_` |
| FileStore.SanitizedIsFixed | distribution/local/store.js:31-34 | a name that is already sanitized is left unchanged |
| FileStore.SanitizeIdempotent | distribution/all/store.js:32-35 | sanitizing twice is the same as sanitizing once, which is what `put` does to a non-null key |
| FileStore.SanitizeCollision | distribution/local/store.js:31-34 | two keys map to the same file exactly when they have the same length, the same letters and digits where either has one, and non-alphanumeric characters in the same places |
| FileStore.SanitizeIsLossy | distribution/local/store.js:31-34 | distinct keys such as `a-b` and `a.b` share a file |
| FileStore.GetFilePath | distribution/local/store.js:36-38 | the file of a key has a sanitized name as long as `String(key)` |
| FileStore.PutName | distribution/local/store.js:40-47 | `put` writes the sanitized content address for a `null` key and the sanitized key otherwise |
| FileStore.Put | distribution/local/store.js:40-52 | a write to the empty name fails with `EISDIR` and any other failed write passes its error on, both changing nothing; otherwise the value is stored in the key's file, every other file is kept and the callback receives the value |
| FileStore.ReadErrorReply | distribution/local/store.js:80-88 | a read error is reported as "Key not found" exactly when its code is `ENOENT`, and is passed on otherwise |
| FileStore.GetKey | distribution/local/store.js:78-93 | a read returns the stored value of the key's file, "Key not found" for a missing file, `EISDIR` for the empty name, and the mapped error for a failed read |
| FileStore.Del | distribution/local/store.js:97-120 | a file that can be read and unlinked is removed and its value returned; the empty name, a missing file, a failed read or a failed unlink leaves the directory unchanged and reports the error |
| FileStore.OperationsKeepNamesSanitized | distribution/local/store.js:40-52 | `put` and `del` leave only sanitized file names in a directory that had only sanitized ones |
| FileStore.PutThenGet | distribution/all/store.js:37-86 | after a successful put under a non-null key whose `String` is not empty, reading that key's file returns the value |
| FileStore.EmptyNameIsDirectory | distribution/local/store.js:36-120 | a key whose `String` is empty names the store directory itself: `put`, `get` and `del` all fail with `EISDIR` and change nothing |
| FileStore.PutVisibleUnderCollidingKey | distribution/local/store.js:31-93 | a value put under `a-b` is returned by a get of `a.b` |
| LocalStore.ActualKey | distribution/local/store.js:54-76 | an object with a truthy `key` field is read through that field and any other key is used as is; a non-null key never unwraps to `null`, so only `get(null)` lists the directory |
| LocalStore.Get | distribution/local/store.js:54-95 | `null` lists every file of the directory with no error, or passes a `readdir` error on; any other key reads the file of its actual key |
| LocalStore.PutThenGet | distribution/local/store.js:40-95 | after a successful put under a non-null key whose `String` is not empty and that is not an object with a truthy `key` field, a get of that key returns the value |
| LocalStore.KeyFieldPutMisses | distribution/local/store.js:40-78 | after `put(v, {key: k})` into an empty directory, `get({key: k})` reports "Key not found" whenever `k` is a non-empty string whose length differs from that of `[object Object]` |
| LocalStore.GetThroughKeyField | distribution/local/store.js:69-78 | `get({key: k})` returns what `get(k)` returns for a non-empty string `k` |
| AllStore.CreateStoreService | distribution/all/store.js:24-30 | the group's directory exists afterwards; an existing one keeps its files, a new one is empty, and other groups are untouched |
| AllStore.Put | distribution/all/store.js:41-52 | `put` acts on the group's own directory as the file-store `put` does and leaves every other group's directory as it was |
| AllStore.Get | distribution/all/store.js:54-86 | `null` with a listing that enumerates the group's directory yields every file of that directory exactly once, with `{}` as the error; a `readdir` error is passed on; any other key reads its file with no `key`-field unwrapping |
| AllStore.PutThenGet | distribution/all/store.js:41-86 | after a successful put in a group under a non-null key whose `String` is not empty, a get of that key in the group returns the value |
| AllStore.Del | distribution/all/store.js:88-111 | `del` acts on the group's own directory as the file-store `del` does and leaves every other group's directory as it was |
| AllStore.Select | distribution/all/store.js:118-129 | the keys selected for relocation are no more than the keys listed |
| AllStore.SelectFailsIffUnplaceable | distribution/all/store.js:119-123 | selection throws exactly when some listed key's content address is not in KID form |
| AllStore.SelectKeepsMovingKeys | distribution/all/store.js:118-129 | a key is selected exactly when it is listed and its naive-hash owner under the old nodes differs from that under the new nodes |
| AllStore.SelectKeepsOrder | distribution/all/store.js:118-129 | the selected keys keep the listing order |
| AllStore.Selection | distribution/all/store.js:118-129 | with no keys listed nothing is evaluated and nothing throws; otherwise a `null` or `undefined` node throws first for the old nodes, then an unplaceable first key, then a bad new node; with both node lists mapped, selection is the key filter |
| AllStore.SelectionMeaning | distribution/all/store.js:118-129 | selection throws exactly when some key is listed and a node list cannot be mapped or some key cannot be placed; otherwise it keeps, in listing order, exactly the listed keys whose owner changes |
| AllStore.ListedKeysNotNull | distribution/all/store.js:58-65 | every selected key is a file name, never `null`, so the relocation's `get` reads a file rather than listing |
| AllStore.RelocateOne | distribution/all/store.js:139-163 | relocating one key succeeds exactly when its file exists under a non-empty name and no call fails, and then leaves the directory as it was; it stops at `get` exactly when the name is empty, the file is missing or the read fails, at `del` exactly when the read or unlink for it fails, and at `put` exactly when only the write fails; the first two stops change nothing, and a failed `put` leaves the directory without that key's file |
| AllStore.RelocateAll | distribution/all/store.js:131-169 | the loop completes exactly when every selected key is relocatable, and the callback then fires once with "Reconfiguration complete"; otherwise it halts at the first key that is not, in the call where relocating that key stops, leaving the directory that stop leaves, and the callback never fires |
| AllStore.HaltedCall | distribution/all/store.js:139-163 | a halted run stopped at `put` exactly when the key's file was read and deleted and the write failed, and only then is the file missing; a halt at `get` or `del` leaves the disk as it was |
| AllStore.Reconf | distribution/all/store.js:113-171 | a failed listing, a `null` or `undefined` node with a key listed, and a key not in KID form each throw before anything changes and without a callback, with the reason selection gives; otherwise `reconf` ends as the relocation loop does over the selected keys |
| AllStore.FaultFreeKeysRelocatable | distribution/all/store.js:113-171 | on a directory of sanitized names that the listing enumerates, every selected key is relocatable when no call fails |
| AllStore.FaultFreeReconfCompletes | distribution/all/store.js:113-171 | under those conditions the relocation completes and the disk is unchanged |

## Left out

- Logging (`appendLog` and `console.log`/`console.error`) is left out. It has no effect on the stores' results.
- The creation of the default directory when `local/store.js` loads is left out. The directory is a parameter.
- `generateKey` in `local/mem.js` is unused, so it is not modelled.
- The callable `serviceFunction` wrapper in `all/mem.js` only logs its argument, so it is not modelled.
- SHA-256 and `JSON.stringify` are uninterpreted functions. `JSON.stringify(undefined)` returns `undefined`, and `createHash().update` then throws; that throw is not modelled.
- Serialization and deserialization are taken to round-trip: a file holds the value itself.
- Partial writes, and the asynchronous interleaving of concurrent calls, are not modelled. Each call is atomic.
- Hex.ParseHex: leading whitespace, a sign and a `0x` prefix, which `parseInt` also accepts, are not modelled. Content addresses and NIDs are lower-case hex digests, which never carry them.
- `parseInt` and `%` act on IEEE doubles, which lose precision above 2^53. The model computes on exact integers.
- Id.NaiveHashOwner: the owner index is the exact key value mod the list length, not the double-precision result of `%`.
- The rendezvous comparison `>` likewise compares exact values, not doubles.
- Strings are sequences of Dafny characters, not UTF-16 code units. Sorting and sanitizing compare code points.
- A JavaScript `Map` compares object keys by reference. `JsMap` compares all keys structurally.
- A JavaScript number is modelled as an integer. Fractions, `-0` and `NaN` as stored keys are not modelled.
- Ring.ConsistentHash: every position must be defined. A `NaN` position makes the comparator return `NaN`, which leaves the sort order to the engine.
- Ring.ConsistentHashIsRingSuccessor: requires that the key is not itself a member. Otherwise `findIndex` may stop at the member's point instead of the key's.
- Rendezvous.WinnerStableUnderRemoval: requires finite scores. With a `NaN` score, the earlier leader decides the winner, and removal can change it.
- `reconf` reads `this.nodes`, which the returned service object never sets. The model takes the new nodes as the parameter `newNodes`.
- Js.ToString: a number prints as its exact decimal digits. JavaScript prints doubles, so from 1e21 it switches to exponent form (`"1e+21"`), and above 2^53 it prints a rounded value; either changes the file name of such a key.
- A sanitized name that is a subdirectory of the store directory is not modelled. A directory holds files only, and only the empty name refers to a directory.
- AllStore.CreateStoreService: a group id is taken to be a plain name that `path.join` keeps distinct from every other and that names no parent or nested directory. `path.join` normalises `"./a"`, `"a/"` and `"b/../a"` to the directory of `"a"`, maps `""` to the `store` directory that holds every group, and `".."` to the module's own directory; such aliasing between groups is not modelled.
- AllStore.Put: each group id names its own directory, as under AllStore.CreateStoreService; a write through an aliased group id changing another group's files is not modelled.
- AllStore.Del: likewise, a delete through an aliased group id is taken to touch only that group's directory.

=== FILE: all_mem.dfy ===
/**
 * The per-group in-memory store (distribution/all/mem.js). Every call of
 * `createStorageService` owns a map of its own; unlike the process-wide
 * store, only a `null` key is content-addressed, and a listing arrives with
 * `{}` in the error position.
 */
module AllMem {
  import opened Js
  import opened JsMap
  import Id

  /** A service returned by `createStorageService({gid})` and the map it closes over. */
  datatype Service = Service(gid: string, storage: JsMap)

  datatype ServiceResult = ServiceResult(service: Service, reply: Reply)

  /** `createStorageService({gid})`: a service over a new, empty map. */
  function CreateStorageService(gid: string): (svc: Service)
    ensures svc.gid == gid && Valid(svc.storage) && svc.storage.vals == map[]
  {
    Service(gid, Empty())
  }

  /**
   * `put(value, key, callback)`: only `null` is replaced by the content
   * address; every other key, `undefined`, `0` and `""` included, is used as is.
   */
  function Put(h: Id.Hasher, svc: Service, value: Value, key: Value): (r: ServiceResult)
    requires Valid(svc.storage)
    ensures Valid(r.service.storage) && r.service.gid == svc.gid
    ensures r.reply == Reply(NoError, value)
    ensures var k := if key == Null then Str(Id.GetID(h, value)) else key;
            && r.service.storage.vals.Keys == svc.storage.vals.Keys + {k}
            && r.service.storage.vals[k] == value
            && forall j :: j in svc.storage.vals && j != k ==> r.service.storage.vals[j] == svc.storage.vals[j]
  {
    var k := if key == Null then Str(Id.GetID(h, value)) else key;
    ServiceResult(svc.(storage := Set(svc.storage, k, value)), Reply(NoError, value))
  }

  /**
   * `get(key, callback)`: `null` lists every key but passes `{}` as the error;
   * otherwise the stored value or a `Key not found` error.
   */
  function Get(svc: Service, key: Value): (r: Reply)
    requires Valid(svc.storage)
    ensures key == Null ==> r.err == EmptyObject && r.value.Arr? && NoDuplicates(r.value.elems)
                            && forall k :: k in r.value.elems <==> k in svc.storage.vals
    ensures key != Null && key in svc.storage.vals ==> r == Reply(NoError, svc.storage.vals[key])
    ensures key != Null && key !in svc.storage.vals ==> r == Reply(KeyNotFound, Null)
  {
    if key == Null then Reply(EmptyObject, Keys(svc.storage))
    else if key in svc.storage.vals then Reply(NoError, svc.storage.vals[key])
    else Reply(KeyNotFound, Null)
  }

  /** `del(key, callback)`: removes the key and hands back its value. */
  function Del(svc: Service, key: Value): (r: ServiceResult)
    requires Valid(svc.storage)
    ensures Valid(r.service.storage) && r.service.gid == svc.gid
    ensures key in svc.storage.vals ==>
              && r.reply == Reply(NoError, svc.storage.vals[key])
              && r.service.storage.vals.Keys == svc.storage.vals.Keys - {key}
              && forall j :: j in r.service.storage.vals ==> r.service.storage.vals[j] == svc.storage.vals[j]
    ensures key !in svc.storage.vals ==> r.reply == Reply(KeyNotFound, Null) && r.service == svc
  {
    if key in svc.storage.vals then
      ServiceResult(svc.(storage := Delete(svc.storage, key)), Reply(NoError, svc.storage.vals[key]))
    else ServiceResult(svc, Reply(KeyNotFound, Null))
  }

  /** A falsy key other than `null` is a key like any other: `put` then `get` round-trips. */
  lemma FalsyKeyStoredVerbatim(h: Id.Hasher, svc: Service, value: Value, key: Value)
    requires Valid(svc.storage) && key != Null && !Truthy(key)
    ensures Get(Put(h, svc, value, key).service, key) == Reply(NoError, value)
  {
  }

  /** After a successful `del`, the key is gone: a second `del` reports `Key not found`. */
  lemma DelTwice(svc: Service, key: Value)
    requires Valid(svc.storage) && key in svc.storage.vals
    ensures Del(Del(svc, key).service, key).reply == Reply(KeyNotFound, Null)
  {
  }

  /**
   * Deleting a freshly added key undoes the put completely, insertion order
   * included, and hands back the value.
   */
  lemma DelUndoesPut(h: Id.Hasher, svc: Service, value: Value, key: Value)
    requires Valid(svc.storage) && key != Null && key !in svc.storage.vals
    ensures Del(Put(h, svc, value, key).service, key) == ServiceResult(svc, Reply(NoError, value))
  {
    DeleteUndoesSet(svc.storage, key, value);
  }
}

=== FILE: all_store.dfy ===
/**
 * The group file store (distribution/all/store.js): a service per group id
 * whose files live in that group's own directory, plus `reconf`, which
 * relocates the keys whose naive-hash owner changes between two node lists.
 */
module AllStore {
  import opened Wrappers
  import opened Js
  import opened FileStore
  import Id

  /** The store directories on disk, by group id. */
  type Disk = map<string, Dir>

  /**
   * `createStoreService({gid})`: makes the group's directory if it is missing
   * and keeps whatever an earlier service for the same group left in it.
   */
  function CreateStoreService(disk: Disk, gid: string): (r: Disk)
    ensures gid in r
    ensures gid in disk ==> r == disk
    ensures gid !in disk ==> r[gid] == map[] && r.Keys == disk.Keys + {gid}
    ensures forall g :: g in disk ==> g in r && r[g] == disk[g]
  {
    if gid in disk then disk else disk[gid := map[]]
  }

  datatype DiskResult = DiskResult(disk: Disk, reply: Reply)

  /** `put(value, key, callback)` within the group's directory. */
  function Put(h: Id.Hasher, disk: Disk, gid: string, value: Value, key: Value, writeFault: Fault): (r: DiskResult)
    requires gid in disk
    ensures r.disk.Keys == disk.Keys
    ensures forall g :: g in disk && g != gid ==> r.disk[g] == disk[g]
    ensures DirResult(r.disk[gid], r.reply) == FileStore.Put(h, disk[gid], value, key, writeFault)
  {
    OnGroup(disk, gid, FileStore.Put(h, disk[gid], value, key, writeFault))
  }

  /** The disk after a file-store call on the group's directory returned `res`. */
  function OnGroup(disk: Disk, gid: string, res: DirResult): (r: DiskResult)
    requires gid in disk
    ensures r.disk.Keys == disk.Keys
    ensures forall g :: g in disk && g != gid ==> r.disk[g] == disk[g]
    ensures DirResult(r.disk[gid], r.reply) == res
  {
    UpdateKeepsOthers(disk, gid, res.dir);
    DiskResult(disk[gid := res.dir], res.reply)
  }

  /**
   * `get(key, callback)`: `null` lists the directory, but with `{}` as the
   * error argument; any other key is read from its sanitized file.
   */
  function Get(disk: Disk, gid: string, key: Value, listing: Listing, readFault: Fault): (r: Reply)
    requires gid in disk
    ensures key == Null && listing.Listed? && Enumerates(listing.names, disk[gid]) ==>
      r.err == EmptyObject && ListsDir(r.value, disk[gid])
    ensures key == Null && listing.ListFailed? ==> r == Reply(FsError(listing.code), Null)
    ensures key != Null ==> r == GetKey(disk[gid], key, readFault)
  {
    if key == Null then
      match listing
      case ListFailed(code) => Reply(FsError(code), Null)
      case Listed(names) =>
        var v := StrArray(names);
        assert Enumerates(names, disk[gid]) ==> forall n :: n in disk[gid] ==> Str(n) in v.elems by {
          forall n | n in disk[gid] && Enumerates(names, disk[gid]) ensures Str(n) in v.elems {
            var i :| 0 <= i < |names| && names[i] == n;
            assert v.elems[i] == Str(n);
          }
        }
        Reply(EmptyObject, v)
    else GetKey(disk[gid], key, readFault)
  }

  /**
   * After a successful put in a group, `get` of the same key in that group
   * returns the value: unlike the local store, `get` reads the same file
   * `put` wrote, whatever the key.
   */
  lemma PutThenGet(h: Id.Hasher, disk: Disk, gid: string, value: Value, key: Value, listing: Listing)
    requires gid in disk && key != Null && ToString(key) != ""
    ensures Get(Put(h, disk, gid, value, key, None).disk, gid, key, listing, None) == Reply(NoError, value)
  {
    FileStore.PutThenGet(h, disk[gid], value, key);
  }

  /** `del(key, callback)` within the group's directory. */
  function Del(disk: Disk, gid: string, key: Value, readFault: Fault, unlinkFault: Fault): (r: DiskResult)
    requires gid in disk
    ensures r.disk.Keys == disk.Keys
    ensures forall g :: g in disk && g != gid ==> r.disk[g] == disk[g]
    ensures DirResult(r.disk[gid], r.reply) == FileStore.Del(disk[gid], key, readFault, unlinkFault)
  {
    OnGroup(disk, gid, FileStore.Del(disk[gid], key, readFault, unlinkFault))
  }

  // ---------------------------------------------------------------------------
  // reconf

  /** The owners of `key` under the old and the new node list differ. */
  predicate Moves(h: Id.Hasher, key: Value, oldNids: seq<string>, newNids: seq<string>)
  {
    Id.NaiveHash(Id.GetID(h, key), oldNids) != Id.NaiveHash(Id.GetID(h, key), newNids)
  }

  /** `idToNum` rejects the key's content address, so `naiveHash` throws. */
  predicate Unplaceable(h: Id.Hasher, key: Value)
  {
    Id.IdToNum(Id.GetID(h, key)).Failure?
  }

  /** `r` is `s` with some elements left out, the rest in order. */
  predicate IsSubsequence(r: seq<Value>, s: seq<Value>)
    decreases |s|
  {
    if |r| == 0 then true
    else if |s| == 0 then false
    else (r[0] == s[0] && IsSubsequence(r[1..], s[1..])) || IsSubsequence(r, s[1..])
  }

  /**
   * Step 2 of `reconf`: the listed keys whose owner changes, in listing order.
   * If `naiveHash` throws for any key, the whole step throws.
   */
  function Select(h: Id.Hasher, keys: seq<Value>, oldNids: seq<string>, newNids: seq<string>)
    : (r: Result<seq<Value>, Id.Thrown>)
    ensures r.Success? ==> |r.value| <= |keys|
  {
    if |keys| == 0 then Success([])
    else
      var kid := Id.GetID(h, keys[0]);
      match Id.NaiveHash(kid, oldNids)
      case Failure(e) => Failure(e)
      case Success(oldOwner) =>
        match Id.NaiveHash(kid, newNids)
        case Failure(e) => Failure(e)
        case Success(newOwner) =>
          match Select(h, keys[1..], oldNids, newNids)
          case Failure(e) => Failure(e)
          case Success(moved) =>
            if oldOwner != newOwner then Success([keys[0]] + moved) else Success(moved)
  }

  /** One step of `Select`: the first key, then the rest. */
  lemma SelectStep(h: Id.Hasher, keys: seq<Value>, oldNids: seq<string>, newNids: seq<string>)
    requires |keys| > 0
    ensures var r := Select(h, keys, oldNids, newNids);
            var rest := Select(h, keys[1..], oldNids, newNids);
            && (r.Failure? <==> Unplaceable(h, keys[0]) || rest.Failure?)
            && (r.Success? ==> r.value == if Moves(h, keys[0], oldNids, newNids) then [keys[0]] + rest.value else rest.value)
  {
  }

  /** `Select` throws exactly when some listed key cannot be placed. */
  lemma {:induction false} SelectFailsIffUnplaceable(h: Id.Hasher, keys: seq<Value>, oldNids: seq<string>, newNids: seq<string>)
    ensures Select(h, keys, oldNids, newNids).Failure? <==> exists i :: 0 <= i < |keys| && Unplaceable(h, keys[i])
  {
    if |keys| > 0 {
      SelectStep(h, keys, oldNids, newNids);
      SelectFailsIffUnplaceable(h, keys[1..], oldNids, newNids);
      assert forall i :: 1 <= i < |keys| ==> keys[i] == keys[1..][i - 1];
      assert forall i :: 0 <= i < |keys| - 1 ==> keys[1..][i] == keys[i + 1];
    }
  }

  /** When it succeeds, `Select` keeps exactly the listed keys whose owner changes. */
  lemma {:induction false} SelectKeepsMovingKeys(h: Id.Hasher, keys: seq<Value>, oldNids: seq<string>, newNids: seq<string>)
    requires Select(h, keys, oldNids, newNids).Success?
    ensures forall k :: k in Select(h, keys, oldNids, newNids).value <==> k in keys && Moves(h, k, oldNids, newNids)
  {
    if |keys| > 0 {
      SelectStep(h, keys, oldNids, newNids);
      SelectKeepsMovingKeys(h, keys[1..], oldNids, newNids);
      FilterStep(keys, k => Moves(h, k, oldNids, newNids), Select(h, keys[1..], oldNids, newNids).value, Select(h, keys, oldNids, newNids).value);
    }
  }

  /** Filtering one more element: membership in the result is membership in the input plus `p`. */
  lemma FilterStep<T>(keys: seq<T>, p: T -> bool, moved: seq<T>, r: seq<T>)
    requires |keys| > 0
    requires forall k :: k in moved <==> k in keys[1..] && p(k)
    requires r == if p(keys[0]) then [keys[0]] + moved else moved
    ensures forall k :: k in r <==> k in keys && p(k)
  {
    assert keys == [keys[0]] + keys[1..];
  }

  /** When it succeeds, `Select` keeps the listing order. */
  lemma {:induction false} SelectKeepsOrder(h: Id.Hasher, keys: seq<Value>, oldNids: seq<string>, newNids: seq<string>)
    requires Select(h, keys, oldNids, newNids).Success?
    ensures IsSubsequence(Select(h, keys, oldNids, newNids).value, keys)
  {
    if |keys| > 0 {
      SelectStep(h, keys, oldNids, newNids);
      SelectKeepsOrder(h, keys[1..], oldNids, newNids);
      var moved := Select(h, keys[1..], oldNids, newNids).value;
      if Moves(h, keys[0], oldNids, newNids) {
        assert ([keys[0]] + moved)[1..] == moved;
      } else {
        SubsequenceOfTail(moved, keys);
      }
    }
  }

  lemma SubsequenceOfTail(r: seq<Value>, s: seq<Value>)
    requires |s| > 0 && IsSubsequence(r, s[1..])
    ensures IsSubsequence(r, s)
  {
  }

  /** The file-system call a fault is injected into while relocating a key. */
  datatype FsCall = ReadForGet | ReadForDel | UnlinkForDel | WriteForPut

  /** Which of the service's own calls reported the error that stopped `reconf`. */
  datatype Call = GetCall | DelCall | PutCall

  /** The faults the environment injects: one per key and call. */
  type Faults = (FsCall, Value) -> Fault

  /** A file system that never fails. */
  function NoFaults(call: FsCall, key: Value): Fault
  {
    None
  }

  /** The result of relocating one key: done, or stopped at one call. */
  datatype Relocation = Relocated(dir: Dir) | Stopped(dir: Dir, at: Call)

  /** Every call of the relocation of `key` succeeds on directory `d`. */
  predicate Relocatable(d: Dir, key: Value, faults: Faults)
  {
    && GetFilePath(key) != ""
    && GetFilePath(key) in d
    && faults(ReadForGet, key).None?
    && faults(ReadForDel, key).None?
    && faults(UnlinkForDel, key).None?
    && faults(WriteForPut, key).None?
  }

  /**
   * One round of `relocateNext`: `get`, then `del`, then `put` under the same
   * key. The put lands in the file the value came from, so a full round leaves
   * the directory as it was; a failed put after a successful delete loses the entry.
   */
  function RelocateOne(h: Id.Hasher, d: Dir, key: Value, faults: Faults): (r: Relocation)
    requires key != Null
    ensures r.Relocated? <==> Relocatable(d, key, faults)
    ensures r.Relocated? ==> r.dir == d
    ensures r.Stopped? && r.at == GetCall <==>
              GetFilePath(key) == "" || GetFilePath(key) !in d || faults(ReadForGet, key).Some?
    ensures r.Stopped? && r.at == DelCall <==>
              GetFilePath(key) != "" && GetFilePath(key) in d && faults(ReadForGet, key).None?
              && (faults(ReadForDel, key).Some? || faults(UnlinkForDel, key).Some?)
    ensures r.Stopped? && r.at == PutCall <==>
              && GetFilePath(key) != "" && GetFilePath(key) in d
              && faults(ReadForGet, key).None? && faults(ReadForDel, key).None?
              && faults(UnlinkForDel, key).None? && faults(WriteForPut, key).Some?
    ensures r.Stopped? && r.at == PutCall ==>
              GetFilePath(key) in d && r.dir == d - {GetFilePath(key)}
    ensures r.Stopped? && r.at != PutCall ==> r.dir == d
  {
    var name := GetFilePath(key);
    var got := GetKey(d, key, faults(ReadForGet, key));
    GetOutcome(d, key, faults(ReadForGet, key));
    if got.err != NoError then Stopped(d, GetCall)
    else
      var deleted := FileStore.Del(d, key, faults(ReadForDel, key), faults(UnlinkForDel, key));
      DelOutcome(d, key, faults(ReadForDel, key), faults(UnlinkForDel, key));
      if deleted.reply.err != NoError then Stopped(deleted.dir, DelCall)
      else
        var put := FileStore.Put(h, deleted.dir, got.value, key, faults(WriteForPut, key));
        PutOutcome(h, deleted.dir, got.value, key, faults(WriteForPut, key));
        if put.reply.err != NoError then Stopped(put.dir, PutCall)
        else
          RestoreEntry(d, name);
          Relocated(put.dir)
  }

  /** The relocation's `get` succeeds exactly when the key's file can be read. */
  lemma GetOutcome(d: Dir, key: Value, f: Fault)
    ensures GetKey(d, key, f).err == NoError <==> GetFilePath(key) != "" && GetFilePath(key) in d && f.None?
    ensures GetKey(d, key, f).err == NoError ==> GetKey(d, key, f).value == d[GetFilePath(key)]
  {
  }

  /** On a readable file, the relocation's `del` removes it exactly when neither of its calls fails. */
  lemma DelOutcome(d: Dir, key: Value, f1: Fault, f2: Fault)
    requires GetFilePath(key) != "" && GetFilePath(key) in d
    ensures FileStore.Del(d, key, f1, f2).reply.err == NoError <==> f1.None? && f2.None?
    ensures FileStore.Del(d, key, f1, f2).reply.err != NoError ==> FileStore.Del(d, key, f1, f2).dir == d
    ensures FileStore.Del(d, key, f1, f2).reply.err == NoError ==>
              FileStore.Del(d, key, f1, f2).dir == d - {GetFilePath(key)}
  {
  }

  /** The relocation's `put` of a listed name writes the file the name came from, unless the write fails. */
  lemma PutOutcome(h: Id.Hasher, d: Dir, value: Value, key: Value, f: Fault)
    requires key != Null && GetFilePath(key) != ""
    ensures FileStore.Put(h, d, value, key, f).reply.err == NoError <==> f.None?
    ensures f.Some? ==> FileStore.Put(h, d, value, key, f).dir == d
    ensures f.None? ==> FileStore.Put(h, d, value, key, f).dir == d[GetFilePath(key) := value]
  {
    SanitizeIdempotent(ToString(key));
    assert PutName(h, value, key) == GetFilePath(key);
  }

  /** Writing a removed entry back restores the directory. */
  lemma RestoreEntry(d: Dir, name: string)
    requires name in d
    ensures (d - {name})[name := d[name]] == d
  {
  }

  /** Why `reconf` threw before relocating anything. */
  datatype Crash =
    | KeysIsNull               // the listing failed: `keys.forEach` on null is a TypeError
    | Threw(thrown: Id.Thrown) // `getNID` or `idToNum` threw while selecting keys

  datatype Outcome = Completed | Halted(key: Value, at: Call) | Crashed(reason: Crash)

  /** The disk after `reconf`, how it ended, and every call of its callback. */
  datatype ReconfResult = ReconfResult(disk: Disk, outcome: Outcome, calls: seq<Reply>)

  /**
   * Step 2 of `reconf` as the code runs it: for each listed key the old
   * nodes are mapped to NIDs, the old owner computed, then the new nodes
   * mapped and the new owner computed. The node lists are only evaluated
   * for a key, so an empty listing throws nothing; otherwise the first key
   * decides whether a node without properties or an unplaceable key throws
   * first.
   */
  function Selection(h: Id.Hasher, keys: seq<Value>, oldNodes: seq<Value>, newNodes: seq<Value>)
    : (r: Result<seq<Value>, Crash>)
    ensures |keys| == 0 ==> r == Success([])
    ensures |keys| > 0 ==>
      (r.Failure? && r.error == Threw(Id.NoAddress) <==>
         Id.NidsOf(h, oldNodes).Failure? || (!Unplaceable(h, keys[0]) && Id.NidsOf(h, newNodes).Failure?))
    ensures |keys| > 0 && Id.NidsOf(h, oldNodes).Success? && Id.NidsOf(h, newNodes).Success? ==>
      r == match Select(h, keys, Id.NidsOf(h, oldNodes).value, Id.NidsOf(h, newNodes).value)
           case Failure(_) => Failure(Threw(Id.NotKidForm))
           case Success(moved) => Success(moved)
    ensures r.Failure? ==> r.error != KeysIsNull
  {
    if |keys| == 0 then Success([])
    else
      match Id.NidsOf(h, oldNodes)
      case Failure(e) => Failure(Threw(e))
      case Success(oldNids) =>
        if Unplaceable(h, keys[0]) then Failure(Threw(Id.NotKidForm))
        else
          match Id.NidsOf(h, newNodes)
          case Failure(e) => Failure(Threw(e))
          case Success(newNids) =>
            match Select(h, keys, oldNids, newNids)
            case Failure(e) => Failure(Threw(Id.NotKidForm))
            case Success(moved) => Success(moved)
  }

  /**
   * `reconf` throws at selection exactly when some key is listed and either a
   * node has no properties or some listed key cannot be placed; otherwise it
   * keeps the listed keys whose owner changes, in listing order.
   */
  lemma {:induction false} SelectionMeaning(h: Id.Hasher, keys: seq<Value>, oldNodes: seq<Value>, newNodes: seq<Value>)
    ensures Selection(h, keys, oldNodes, newNodes).Failure? <==>
      |keys| > 0 && (Id.NidsOf(h, oldNodes).Failure? || Id.NidsOf(h, newNodes).Failure?
                     || exists i :: 0 <= i < |keys| && Unplaceable(h, keys[i]))
    ensures Selection(h, keys, oldNodes, newNodes).Success? ==>
      var moved := Selection(h, keys, oldNodes, newNodes).value;
      && IsSubsequence(moved, keys)
      && (|keys| > 0 ==>
            forall k :: k in moved <==>
              k in keys && Moves(h, k, Id.NidsOf(h, oldNodes).value, Id.NidsOf(h, newNodes).value))
  {
    var r := Selection(h, keys, oldNodes, newNodes);
    if |keys| > 0 && Id.NidsOf(h, oldNodes).Success? && Id.NidsOf(h, newNodes).Success? {
      var oldNids, newNids := Id.NidsOf(h, oldNodes).value, Id.NidsOf(h, newNodes).value;
      SelectFailsIffUnplaceable(h, keys, oldNids, newNids);
      if r.Success? {
        SelectKeepsOrder(h, keys, oldNids, newNids);
        SelectKeepsMovingKeys(h, keys, oldNids, newNids);
      }
    }
  }

  /** Every key of `moved` before position `j` is relocatable. */
  predicate AllRelocatable(d: Dir, moved: seq<Value>, j: int, faults: Faults)
    requires 0 <= j <= |moved|
  {
    forall i :: 0 <= i < j ==> Relocatable(d, moved[i], faults)
  }

  /**
   * The disk `after` a relocation halted at `key` in the call `at`: only the
   * group's own directory can differ, and it lost the key's file exactly when
   * the `put` failed.
   */
  predicate DiskAfterHalt(disk: Disk, gid: string, key: Value, at: Call, after: Disk)
    requires gid in disk
  {
    && after.Keys == disk.Keys
    && (forall g :: g in disk && g != gid ==> after[g] == disk[g])
    && after[gid] == if at == PutCall then disk[gid] - {GetFilePath(key)} else disk[gid]
  }

  /** `key` is the first of the keys in `moved` that is not relocatable. */
  predicate FirstStuck(d: Dir, moved: seq<Value>, faults: Faults, key: Value)
  {
    && (exists j :: 0 <= j < |moved| && moved[j] == key && AllRelocatable(d, moved, j, faults))
    && !Relocatable(d, key, faults)
  }

  /**
   * `out` is what `reconf` leaves when it relocated the keys in `moved` from
   * the directory of `gid`: done with the disk as it was when every key was
   * relocatable, otherwise halted at the first key that was not, in the call
   * where relocating that key alone stops, having lost that key's file only
   * when its `put` failed.
   */
  predicate RelocationOutcome(h: Id.Hasher, disk: Disk, gid: string, moved: seq<Value>, faults: Faults, out: ReconfResult)
    requires gid in disk
  {
    && (out.outcome.Completed? <==> AllRelocatable(disk[gid], moved, |moved|, faults))
    && (out.outcome.Completed? ==> out.disk == disk)
    && !out.outcome.Crashed?
    && (out.outcome.Halted? ==>
          && FirstStuck(disk[gid], moved, faults, out.outcome.key)
          && DiskAfterHalt(disk, gid, out.outcome.key, out.outcome.at, out.disk)
          && out.outcome.key != Null
          && RelocateOne(h, disk[gid], out.outcome.key, faults) == Stopped(out.disk[gid], out.outcome.at))
  }

  /**
   * Where a relocation run halts is decided by the faults: at the `put`
   * exactly when the key's file was read and deleted but could not be
   * written back, and only then is that file missing afterwards; a halt
   * anywhere else leaves the whole disk as it was.
   */
  lemma HaltedCall(h: Id.Hasher, disk: Disk, gid: string, moved: seq<Value>, faults: Faults, out: ReconfResult)
    requires gid in disk && RelocationOutcome(h, disk, gid, moved, faults, out) && out.outcome.Halted?
    ensures var key := out.outcome.key;
            var name := GetFilePath(key);
            && (out.outcome.at == PutCall <==>
                  && name != "" && name in disk[gid]
                  && faults(ReadForGet, key).None? && faults(ReadForDel, key).None?
                  && faults(UnlinkForDel, key).None? && faults(WriteForPut, key).Some?)
            && (out.outcome.at == PutCall ==> name !in out.disk[gid])
            && (out.outcome.at != PutCall ==> out.disk == disk)
  {
    var key, at := out.outcome.key, out.outcome.at;
    assert RelocateOne(h, disk[gid], key, faults) == Stopped(out.disk[gid], at);
    StopReason(h, disk[gid], key, faults, out.disk[gid], at);
    if at != PutCall {
      DiskRestored(disk, gid, out.disk);
    }
  }

  /** Which call a relocation of one key stops at, and what it leaves, from the faults alone. */
  lemma StopReason(h: Id.Hasher, d: Dir, key: Value, faults: Faults, dir: Dir, at: Call)
    requires key != Null && RelocateOne(h, d, key, faults) == Stopped(dir, at)
    ensures var name := GetFilePath(key);
            && (at == PutCall <==>
                  && name != "" && name in d
                  && faults(ReadForGet, key).None? && faults(ReadForDel, key).None?
                  && faults(UnlinkForDel, key).None? && faults(WriteForPut, key).Some?)
            && (at == PutCall ==> name !in dir)
            && (at != PutCall ==> dir == d)
  {
  }

  lemma DiskRestored(disk: Disk, gid: string, after: Disk)
    requires gid in disk && after.Keys == disk.Keys && gid in after && after[gid] == disk[gid]
    requires forall g :: g in disk && g != gid ==> after[g] == disk[g]
    ensures after == disk
  {
  }

  /** The keys of a listing are strings, never `null`. */
  lemma ListedKeysNotNull(names: seq<string>, moved: seq<Value>)
    requires IsSubsequence(moved, StrArray(names).elems)
    ensures forall k :: k in moved ==> k != Null
  {
    forall k | k in moved ensures k != Null {
      SubsequenceMembers(moved, StrArray(names).elems, k);
    }
  }

  lemma {:induction false} SubsequenceMembers(r: seq<Value>, s: seq<Value>, k: Value)
    requires IsSubsequence(r, s) && k in r
    ensures k in s
    decreases |s|
  {
    if r[0] == s[0] && IsSubsequence(r[1..], s[1..]) {
      if k != r[0] {
        assert k in r[1..];
        SubsequenceMembers(r[1..], s[1..], k);
      }
    } else {
      SubsequenceMembers(r, s[1..], k);
    }
  }

  /**
   * Stopping at the `j`th key, after relocating those before it, with the
   * directory a stopped relocation leaves, is an outcome `reconf` may have.
   */
  lemma HaltIsOutcome(h: Id.Hasher, disk: Disk, gid: string, moved: seq<Value>, faults: Faults, j: nat, dir: Dir, at: Call)
    requires gid in disk && j < |moved| && moved[j] != Null
    requires AllRelocatable(disk[gid], moved, j, faults)
    requires RelocateOne(h, disk[gid], moved[j], faults) == Stopped(dir, at)
    ensures RelocationOutcome(h, disk, gid, moved, faults, ReconfResult(disk[gid := dir], Halted(moved[j], at), []))
  {
    StuckAt(disk[gid], moved, faults, j);
    HaltedDisk(disk, gid, moved[j], at, dir);
  }

  lemma StuckAt(d: Dir, moved: seq<Value>, faults: Faults, j: nat)
    requires j < |moved| && AllRelocatable(d, moved, j, faults) && !Relocatable(d, moved[j], faults)
    ensures FirstStuck(d, moved, faults, moved[j])
    ensures !AllRelocatable(d, moved, |moved|, faults)
  {
  }

  lemma HaltedDisk(disk: Disk, gid: string, key: Value, at: Call, dir: Dir)
    requires gid in disk
    requires dir == if at == PutCall then disk[gid] - {GetFilePath(key)} else disk[gid]
    ensures DiskAfterHalt(disk, gid, key, at, disk[gid := dir])
  {
    UpdateKeepsOthers(disk, gid, dir);
  }

  /** Updating one entry of a map leaves its keys and every other entry alone. */
  lemma UpdateKeepsOthers<K, V>(m: map<K, V>, k: K, v: V)
    requires k in m
    ensures m[k := v].Keys == m.Keys && m[k := v][k] == v
    ensures forall g :: g in m && g != k ==> m[k := v][g] == m[g]
  {
  }

  /**
   * Step 3 of `reconf`: `relocateNext` over the selected keys of group `gid`,
   * one at a time, stopping silently at the first error.
   */
  method RelocateAll(h: Id.Hasher, disk: Disk, gid: string, moved: seq<Value>, faults: Faults)
    returns (out: ReconfResult)
    requires gid in disk
    requires forall k :: k in moved ==> k != Null
    ensures RelocationOutcome(h, disk, gid, moved, faults, out)
    ensures out.outcome.Completed? <==> out.calls == [Reply(NoError, Str("Reconfiguration complete"))]
    ensures !out.outcome.Completed? ==> out.calls == []
  {
    var relocatedObjects := moved;
    var d := disk[gid];
    ghost var done := 0;
    while |relocatedObjects| > 0
      invariant 0 <= done <= |moved|
      invariant relocatedObjects == moved[done..]
      invariant d == disk[gid]
      invariant AllRelocatable(disk[gid], moved, done, faults)
    {
      var key := relocatedObjects[0];
      relocatedObjects := relocatedObjects[1..];
      assert key == moved[done] && key in moved;
      var step := RelocateOne(h, d, key, faults);
      StepOutcome(h, disk, gid, moved, faults, done);
      if step.Stopped? {
        return ReconfResult(disk[gid := step.dir], Halted(key, step.at), []);
      }
      d := step.dir;
      done := done + 1;
    }
    CompletedIsOutcome(h, disk, gid, moved, faults);
    out := ReconfResult(disk, Completed, [Reply(NoError, Str("Reconfiguration complete"))]);
  }

  /** Relocating the next key either keeps the run going or is an outcome `reconf` may have. */
  lemma StepOutcome(h: Id.Hasher, disk: Disk, gid: string, moved: seq<Value>, faults: Faults, j: nat)
    requires gid in disk && j < |moved| && moved[j] != Null
    requires AllRelocatable(disk[gid], moved, j, faults)
    ensures var step := RelocateOne(h, disk[gid], moved[j], faults);
            && (step.Relocated? ==> step.dir == disk[gid] && AllRelocatable(disk[gid], moved, j + 1, faults))
            && (step.Stopped? ==>
                  RelocationOutcome(h, disk, gid, moved, faults, ReconfResult(disk[gid := step.dir], Halted(moved[j], step.at), [])))
  {
    var step := RelocateOne(h, disk[gid], moved[j], faults);
    if step.Stopped? {
      HaltIsOutcome(h, disk, gid, moved, faults, j, step.dir, step.at);
    } else {
      RelocatedNext(disk[gid], moved, j, faults);
    }
  }

  lemma RelocatedNext(d: Dir, moved: seq<Value>, j: nat, faults: Faults)
    requires j < |moved| && AllRelocatable(d, moved, j, faults) && Relocatable(d, moved[j], faults)
    ensures AllRelocatable(d, moved, j + 1, faults)
  {
  }

  /** Relocating every key, each leaving the directory as it was, is an outcome `reconf` may have. */
  lemma CompletedIsOutcome(h: Id.Hasher, disk: Disk, gid: string, moved: seq<Value>, faults: Faults)
    requires gid in disk && AllRelocatable(disk[gid], moved, |moved|, faults)
    ensures RelocationOutcome(h, disk, gid, moved, faults,
                              ReconfResult(disk, Completed, [Reply(NoError, Str("Reconfiguration complete"))]))
  {
  }

  /**
   * `reconf(oldGroup, callback)` with the service's current nodes passed in
   * as `newNodes`. Lists the directory, selects the keys whose naive-hash
   * owner changes, and relocates them in listing order. The callback is
   * called once, with `(null, 'Reconfiguration complete')`, only when every
   * key was relocated; a failed step ends the run without calling it.
   */
  method Reconf(h: Id.Hasher, disk: Disk, gid: string, oldNodes: seq<Value>, newNodes: seq<Value>,
                listing: Listing, faults: Faults)
    returns (out: ReconfResult)
    requires gid in disk
    ensures out.outcome.Completed? <==> out.calls == [Reply(NoError, Str("Reconfiguration complete"))]
    ensures !out.outcome.Completed? ==> out.calls == []
    ensures listing.ListFailed? ==> out == ReconfResult(disk, Crashed(KeysIsNull), [])
    ensures listing.Listed? && Selection(h, StrArray(listing.names).elems, oldNodes, newNodes).Failure? ==>
              out == ReconfResult(disk, Crashed(Selection(h, StrArray(listing.names).elems, oldNodes, newNodes).error), [])
    ensures listing.Listed? && Selection(h, StrArray(listing.names).elems, oldNodes, newNodes).Success? ==>
              RelocationOutcome(h, disk, gid, Selection(h, StrArray(listing.names).elems, oldNodes, newNodes).value, faults, out)
  {
    // Step 1: fetch all keys.
    var listed := Get(disk, gid, Null, listing, None);
    if !listed.value.Arr? {
      return ReconfResult(disk, Crashed(KeysIsNull), []);
    }
    var keys := listed.value.elems;
    // Step 2: determine the objects to relocate.
    var selection := Selection(h, keys, oldNodes, newNodes);
    if selection.Failure? {
      return ReconfResult(disk, Crashed(selection.error), []);
    }
    SelectionMeaning(h, keys, oldNodes, newNodes);
    ListedKeysNotNull(listing.names, selection.value);
    // Step 3: relocate them one by one.
    out := RelocateAll(h, disk, gid, selection.value, faults);
  }

  /**
   * On a directory that only `put` has written to, with a listing that
   * enumerates it, a fault-free file system lets every selected key be
   * relocated.
   */
  lemma FaultFreeKeysRelocatable(d: Dir, names: seq<string>, moved: seq<Value>)
    requires Enumerates(names, d) && AllSanitized(d)
    requires IsSubsequence(moved, StrArray(names).elems)
    ensures AllRelocatable(d, moved, |moved|, NoFaults)
  {
    forall i | 0 <= i < |moved| ensures Relocatable(d, moved[i], NoFaults) {
      SubsequenceMembers(moved, StrArray(names).elems, moved[i]);
      var j :| 0 <= j < |names| && StrArray(names).elems[j] == moved[i];
      assert names[j] in d;
      SanitizedIsFixed(names[j]);
    }
  }

  /** A fault-free relocation over such a directory completes and changes nothing. */
  lemma FaultFreeReconfCompletes(h: Id.Hasher, disk: Disk, gid: string, names: seq<string>, moved: seq<Value>, out: ReconfResult)
    requires gid in disk && Enumerates(names, disk[gid]) && AllSanitized(disk[gid])
    requires IsSubsequence(moved, StrArray(names).elems)
    requires RelocationOutcome(h, disk, gid, moved, NoFaults, out)
    ensures out.outcome.Completed? && out.disk == disk
  {
    FaultFreeKeysRelocatable(disk[gid], names, moved);
  }
}

=== FILE: file_store.dfy ===
/**
 * The file-backed store logic that distribution/local/store.js and
 * distribution/all/store.js both contain: key sanitization, the file a key
 * maps to, and `put`/`get`/`del` against one directory. The directory is a
 * map from file names to the values the files hold (serialization and
 * deserialization are taken to round-trip), and the file system may fail any
 * call with an error code the environment chooses. A key whose `String` is
 * empty sanitizes to the empty name, and `path.join(base, "")` is the
 * directory itself: reading or writing it as a file fails with `EISDIR`.
 */
module FileStore {
  import opened Wrappers
  import opened Js
  import Id

  /** A directory: file name to stored value. */
  type Dir = map<string, Value>

  /** An error the file system injects into one call (`err.code`), if any. */
  type Fault = Option<string>

  /** A character the pattern `[a-zA-Z0-9]` matches. */
  predicate IsAlnum(c: char)
  {
    ('a' <= c <= 'z') || ('A' <= c <= 'Z') || ('0' <= c <= '9')
  }

  /** A name `sanitizeKey` can produce: letters, digits and underscores only. */
  predicate IsSanitized(s: string)
  {
    forall i :: 0 <= i < |s| ==> IsAlnum(s[i]) || s[i] == '_'
  }

  /** `s.replace(/[^a-zA-Z0-9]/g, '_')`. */
  function Sanitize(s: string): (r: string)
    ensures |r| == |s|
    ensures IsSanitized(r)
    ensures forall i :: 0 <= i < |s| && IsAlnum(s[i]) ==> r[i] == s[i]
    ensures forall i :: 0 <= i < |s| && !IsAlnum(s[i]) ==> r[i] == '_'
  {
    if |s| == 0 then []
    else [if IsAlnum(s[0]) then s[0] else '_'] + Sanitize(s[1..])
  }

  /** `sanitizeKey(key)`: `String(key)` with every other character replaced by `_`. */
  function SanitizeKey(key: Value): (name: string)
    ensures IsSanitized(name) && |name| == |ToString(key)|
    ensures name == "" <==> ToString(key) == ""
  {
    Sanitize(ToString(key))
  }

  /** Sanitized names are left alone. */
  lemma SanitizedIsFixed(s: string)
    requires IsSanitized(s)
    ensures Sanitize(s) == s
  {
  }

  lemma SanitizeIdempotent(s: string)
    ensures Sanitize(Sanitize(s)) == Sanitize(s)
  {
    SanitizedIsFixed(Sanitize(s));
  }

  /**
   * Exactly when two keys share a file: same length, and they agree at every
   * position where either has a letter or digit.
   */
  lemma {:induction false} SanitizeCollision(a: string, b: string)
    ensures Sanitize(a) == Sanitize(b) <==>
      |a| == |b| && forall i :: 0 <= i < |a| && (IsAlnum(a[i]) || IsAlnum(b[i])) ==> a[i] == b[i]
  {
    var sa, sb := Sanitize(a), Sanitize(b);
    if |a| == |b| && forall i :: 0 <= i < |a| && (IsAlnum(a[i]) || IsAlnum(b[i])) ==> a[i] == b[i] {
      forall i | 0 <= i < |a| ensures sa[i] == sb[i] {
        if IsAlnum(a[i]) || IsAlnum(b[i]) { assert a[i] == b[i]; }
      }
      assert sa == sb;
    }
    if sa == sb {
      forall i | 0 <= i < |a| && (IsAlnum(a[i]) || IsAlnum(b[i])) ensures a[i] == b[i] {
        assert sa[i] == sb[i];
      }
    }
  }

  /** Sanitization is lossy: distinct keys can land in one file. */
  lemma SanitizeIsLossy()
    ensures Sanitize("a-b") == Sanitize("a.b") && "a-b" != "a.b"
  {
    SanitizeCollision("a-b", "a.b");
    assert "a-b"[1] != "a.b"[1];
  }

  /** `getFilePath(key)`, relative to the store's base directory. */
  function GetFilePath(key: Value): (name: string)
    ensures IsSanitized(name) && |name| == |ToString(key)|
  {
    SanitizeKey(key)
  }

  /** The error code of a file call on the store directory itself. */
  const DirectoryErrorCode: string := "EISDIR"

  /** The file `put(value, key)` writes: the content address for `null`, the sanitized key otherwise. */
  function PutName(h: Id.Hasher, value: Value, key: Value): (name: string)
    ensures IsSanitized(name)
    ensures key == Null ==> name == Sanitize(Id.GetID(h, value))
    ensures key != Null ==> name == SanitizeKey(key)
  {
    var k := if key == Null then Id.GetID(h, value) else SanitizeKey(key);
    SanitizeIdempotent(ToString(key));
    GetFilePath(Str(k))
  }

  /** The directory after a call and the arguments the callback received. */
  datatype DirResult = DirResult(dir: Dir, reply: Reply)

  /**
   * `put(value, key, callback)`: write the value, hand it back; a failed
   * write, including one to the directory's own path, changes nothing.
   */
  function Put(h: Id.Hasher, d: Dir, value: Value, key: Value, writeFault: Fault): (r: DirResult)
    ensures PutName(h, value, key) == "" ==> r == DirResult(d, Reply(FsError(DirectoryErrorCode), Null))
    ensures PutName(h, value, key) != "" && writeFault.Some? ==>
      r == DirResult(d, Reply(FsError(writeFault.value), Null))
    ensures PutName(h, value, key) != "" && writeFault.None? ==>
      && r.reply == Reply(NoError, value)
      && r.dir.Keys == d.Keys + {PutName(h, value, key)}
      && r.dir[PutName(h, value, key)] == value
      && forall n :: n in d && n != PutName(h, value, key) ==> r.dir[n] == d[n]
  {
    var name := PutName(h, value, key);
    if name == "" then DirResult(d, Reply(FsError(DirectoryErrorCode), Null))
    else
      match writeFault
      case Some(code) => DirResult(d, Reply(FsError(code), Null))
      case None => DirResult(d[name := value], Reply(NoError, value))
  }

  /** The reply for a failed `readFile`: ENOENT becomes `Key not found`, anything else passes through. */
  function ReadErrorReply(code: string): (r: Reply)
    ensures r.value == Null && r.err != NoError
    ensures r.err == KeyNotFound <==> code == "ENOENT"
  {
    if code == "ENOENT" then Reply(KeyNotFound, Null) else Reply(FsError(code), Null)
  }

  /** `fs.readFile`: EISDIR for the directory itself, else the injected error, else the file's value, else ENOENT. */
  function ReadFile(d: Dir, name: string, fault: Fault): Result<Value, string>
  {
    if name == "" then Failure(DirectoryErrorCode)
    else if fault.Some? then Failure(fault.value)
    else if name in d then Success(d[name])
    else Failure("ENOENT")
  }

  /** `get(key, callback)` for a key that is not `null`. */
  function GetKey(d: Dir, key: Value, readFault: Fault): (r: Reply)
    ensures GetFilePath(key) == "" ==> r == Reply(FsError(DirectoryErrorCode), Null)
    ensures GetFilePath(key) != "" && readFault.None? && GetFilePath(key) in d ==> r == Reply(NoError, d[GetFilePath(key)])
    ensures GetFilePath(key) != "" && readFault.None? && GetFilePath(key) !in d ==> r == Reply(KeyNotFound, Null)
    ensures GetFilePath(key) != "" && readFault.Some? ==> r == ReadErrorReply(readFault.value)
  {
    match ReadFile(d, GetFilePath(key), readFault)
    case Failure(code) => ReadErrorReply(code)
    case Success(v) => Reply(NoError, v)
  }

  /**
   * `del(key, callback)`: read the file, unlink it, hand back what it held.
   * Any failure leaves the directory as it was.
   */
  function Del(d: Dir, key: Value, readFault: Fault, unlinkFault: Fault): (r: DirResult)
    ensures GetFilePath(key) == "" ==> r == DirResult(d, Reply(FsError(DirectoryErrorCode), Null))
    ensures GetFilePath(key) != "" && readFault.None? && GetFilePath(key) in d && unlinkFault.None? ==>
      && r.reply == Reply(NoError, d[GetFilePath(key)])
      && r.dir.Keys == d.Keys - {GetFilePath(key)}
      && forall n :: n in r.dir ==> r.dir[n] == d[n]
    ensures GetFilePath(key) != "" && readFault.None? && GetFilePath(key) !in d ==>
      r == DirResult(d, Reply(KeyNotFound, Null))
    ensures GetFilePath(key) != "" && readFault.Some? ==> r == DirResult(d, ReadErrorReply(readFault.value))
    ensures GetFilePath(key) != "" && readFault.None? && GetFilePath(key) in d && unlinkFault.Some? ==>
      r == DirResult(d, Reply(FsError(unlinkFault.value), Null))
  {
    var name := GetFilePath(key);
    match ReadFile(d, name, readFault)
    case Failure(code) => DirResult(d, ReadErrorReply(code))
    case Success(v) =>
      match unlinkFault
      case Some(code) => DirResult(d, Reply(FsError(code), Null))
      case None => DirResult(d - {name}, Reply(NoError, v))
  }

  /** What `fs.readdir` delivered: the names in some order, or an error. */
  datatype Listing = Listed(names: seq<string>) | ListFailed(code: string)

  /** `names` lists every file of `d` exactly once. */
  predicate Enumerates(names: seq<string>, d: Dir)
  {
    && (forall i, j :: 0 <= i < j < |names| ==> names[i] != names[j])
    && (forall n :: n in names ==> n in d)
    && (forall n :: n in d ==> n in names)
  }

  /** The names of a listing as the string array the callback receives. */
  predicate ListsDir(v: Value, d: Dir)
  {
    && v.Arr?
    && (forall i :: 0 <= i < |v.elems| ==> v.elems[i].Str? && v.elems[i].s in d)
    && (forall n :: n in d ==> Str(n) in v.elems)
    && (forall i, j :: 0 <= i < j < |v.elems| ==> v.elems[i] != v.elems[j])
  }

  /** Every file name in the directory is one `put` can produce: sanitized and not empty. */
  predicate AllSanitized(d: Dir)
  {
    forall n :: n in d ==> n != "" && IsSanitized(n)
  }

  /** `put` and `del` only ever leave sanitized names behind. */
  lemma OperationsKeepNamesSanitized(h: Id.Hasher, d: Dir, value: Value, key: Value, f1: Fault, f2: Fault)
    requires AllSanitized(d)
    ensures AllSanitized(Put(h, d, value, key, f1).dir)
    ensures AllSanitized(Del(d, key, f1, f2).dir)
  {
  }

  /** After a successful put, reading the same key returns the value. */
  lemma PutThenGet(h: Id.Hasher, d: Dir, value: Value, key: Value)
    requires key != Null && ToString(key) != ""
    ensures GetKey(Put(h, d, value, key, None).dir, key, None) == Reply(NoError, value)
  {
  }

  /** A key whose `String` is empty names the directory itself: `put` fails and `get` cannot find it. */
  lemma EmptyNameIsDirectory(h: Id.Hasher, d: Dir, value: Value, key: Value, f1: Fault, f2: Fault)
    requires key != Null && ToString(key) == ""
    ensures Put(h, d, value, key, f1) == DirResult(d, Reply(FsError(DirectoryErrorCode), Null))
    ensures GetKey(d, key, f1) == Reply(FsError(DirectoryErrorCode), Null)
    ensures Del(d, key, f1, f2) == DirResult(d, Reply(FsError(DirectoryErrorCode), Null))
  {
  }

  /** Because of sanitization, a put under one key is visible under every colliding key. */
  lemma PutVisibleUnderCollidingKey(h: Id.Hasher, d: Dir, value: Value)
    ensures GetKey(Put(h, d, value, Str("a-b"), None).dir, Str("a.b"), None) == Reply(NoError, value)
  {
    SanitizeIsLossy();
  }
}

=== FILE: hex.dfy ===
/**
 * `parseInt(s, 16)` on strings without leading white space or sign: the
 * value of the longest prefix of hexadecimal digits, or NaN (here `None`)
 * when there is no such digit at the start.
 */
module Hex {
  import opened Wrappers

  predicate IsHexDigit(c: char)
  {
    ('0' <= c <= '9') || ('a' <= c <= 'f') || ('A' <= c <= 'F')
  }

  function DigitValue(c: char): (d: nat)
    requires IsHexDigit(c)
    ensures d < 16
  {
    if '0' <= c <= '9' then c as int - '0' as int
    else if 'a' <= c <= 'f' then c as int - 'a' as int + 10
    else c as int - 'A' as int + 10
  }

  predicate AllHex(s: string)
  {
    forall i :: 0 <= i < |s| ==> IsHexDigit(s[i])
  }

  function Pow16(n: nat): (p: nat)
    ensures p >= 1
  {
    if n == 0 then 1 else 16 * Pow16(n - 1)
  }

  /** The number a string of hex digits denotes, read most significant digit first. */
  function HexValue(s: string): (v: nat)
    requires AllHex(s)
    ensures v < Pow16(|s|)
  {
    if |s| == 0 then 0
    else 16 * HexValue(s[..|s| - 1]) + DigitValue(s[|s| - 1])
  }

  /** The length of the longest prefix of `s` made of hex digits. */
  function HexPrefixLength(s: string): (n: nat)
    ensures n <= |s|
    ensures AllHex(s[..n])
    ensures n < |s| ==> !IsHexDigit(s[n])
  {
    if |s| == 0 || !IsHexDigit(s[0]) then 0
    else
      var m := HexPrefixLength(s[1..]);
      assert s[..1 + m] == [s[0]] + s[1..][..m];
      1 + m
  }

  /** `parseInt(s, 16)`, with `None` for NaN. */
  function ParseHex(s: string): (r: Option<nat>)
    ensures r.None? <==> (|s| == 0 || !IsHexDigit(s[0]))
    ensures AllHex(s) && |s| > 0 ==> r == Some(HexValue(s))
    ensures forall k {:trigger HexValue(s[..k])} :: 0 < k <= |s| && AllHex(s[..k]) && (k == |s| || !IsHexDigit(s[k]))
              ==> r == Some(HexValue(s[..k]))
    ensures r.Some? ==> r.value < Pow16(|s|)
  {
    var n := HexPrefixLength(s);
    assert AllHex(s) ==> n == |s|;
    assert s[..|s|] == s;
    LongestPrefixUnique(s, n);
    PowMonotone(n, |s|);
    if n == 0 then None else Some(HexValue(s[..n]))
  }

  lemma LongestPrefixUnique(s: string, n: nat)
    requires n <= |s| && AllHex(s[..n]) && (n < |s| ==> !IsHexDigit(s[n]))
    ensures forall k :: 0 <= k <= |s| && AllHex(s[..k]) && (k == |s| || !IsHexDigit(s[k])) ==> k == n
  {
    forall k | 0 <= k <= |s| && AllHex(s[..k]) && (k == |s| || !IsHexDigit(s[k]))
      ensures k == n
    {
    }
  }

  /** `s.substring(0, 16)`. */
  function Take16(s: string): (r: string)
    ensures |r| == if |s| < 16 then |s| else 16
    ensures r <= s
  {
    if |s| < 16 then s else s[..16]
  }

  /**
   * `parseInt(s.substring(0, 16), 16)`: the ring position of an id. It never
   * exceeds an unsigned 64-bit integer.
   */
  function Position(s: string): (r: Option<nat>)
    ensures r.Some? ==> r.value < 0x1_0000_0000_0000_0000
  {
    var t := Take16(s);
    PowMonotone(|t|, 16);
    Pow16Of16();
    ParseHex(t)
  }

  lemma Pow16Of16()
    ensures Pow16(16) == 0x1_0000_0000_0000_0000
  {
    assert Pow16(4) == 0x1_0000;
    assert Pow16(8) == 0x1_0000_0000;
    assert Pow16(12) == 0x1_0000_0000_0000;
  }

  lemma {:induction false} PowMonotone(a: nat, b: nat)
    requires a <= b
    ensures Pow16(a) <= Pow16(b)
    decreases b
  {
    if a < b { PowMonotone(a, b - 1); }
  }
}

=== FILE: id.dfy ===
/**
 * Identifiers and naive modulo placement (distribution/util/id.js).
 * SHA-256 and `JSON.stringify` are left uninterpreted: a `Hasher` carries
 * them as plain functions, and every result holds for every choice of them.
 */
module Id {
  import opened Wrappers
  import opened Js
  import Hex
  import StringSort

  /** The two primitives `getID` is built from. */
  datatype Hasher = Hasher(sha256: string -> string, stringify: Value -> string)

  /** What the id functions throw. */
  datatype Thrown =
    | NotKidForm   // `idToNum`: an `AssertionError` for an id that is not hex
    | NoAddress    // `getNID`: a `TypeError` reading `ip` of `null` or `undefined`

  /** `getID(obj)`: the hex SHA-256 digest of the JSON text of `obj`. */
  function GetID(h: Hasher, obj: Value): string
  {
    h.sha256(h.stringify(obj))
  }

  /** The object `{ip: node.ip, port: node.port}` that `getNID` hashes. */
  function NodeKey(node: Value): (k: Value)
    ensures k.Obj? && |k.fields| == 2
    ensures Field(k, "ip") == Field(node, "ip") && Field(k, "port") == Field(node, "port")
  {
    var fields := [("ip", Field(node, "ip")), ("port", Field(node, "port"))];
    assert "ip" != "port" by { assert "ip"[1] != "port"[1]; }
    assert fields[1..] == [("port", Field(node, "port"))];
    assert Lookup(fields[1..], "port") == Field(node, "port");
    assert Lookup(fields, "port") == Lookup(fields[1..], "port");
    Obj(fields)
  }

  /** A value `node.ip` throws on. */
  predicate NoProperties(node: Value)
  {
    node == Null || node == Undefined
  }

  /**
   * `getNID(node)`: the content address of the node's address. Any value
   * other than `null` and `undefined` has properties to read, if only
   * `undefined` ones.
   */
  function GetNID(h: Hasher, node: Value): (r: Result<string, Thrown>)
    ensures r.Failure? <==> NoProperties(node)
    ensures r.Failure? ==> r.error == NoAddress
  {
    if NoProperties(node) then Failure(NoAddress) else Success(GetID(h, NodeKey(node)))
  }

  /** Only a node's `ip` and `port` fields take part in its NID. */
  lemma NidDependsOnlyOnAddress(h: Hasher, a: Value, b: Value)
    requires !NoProperties(a) && !NoProperties(b)
    requires Field(a, "ip") == Field(b, "ip") && Field(a, "port") == Field(b, "port")
    ensures GetNID(h, a).Success? && GetNID(h, a) == GetNID(h, b)
  {
  }

  /** `getSID(node)`: `getNID(node).substring(0, 5)`. */
  function GetSID(h: Hasher, node: Value): (sid: Result<string, Thrown>)
    ensures sid.Failure? <==> GetNID(h, node).Failure?
    ensures sid.Success? ==>
      var nid := GetNID(h, node).value;
      sid.value <= nid && |sid.value| == if |nid| < 5 then |nid| else 5
  {
    match GetNID(h, node)
    case Failure(e) => Failure(e)
    case Success(nid) => Success(if |nid| < 5 then nid else nid[..5])
  }

  /** `idToNum(id)`: the hex value of `id`, or the assertion failure. */
  function IdToNum(id: string): (r: Result<nat, Thrown>)
    ensures r.Failure? <==> (|id| == 0 || !Hex.IsHexDigit(id[0]))
    ensures Hex.AllHex(id) && |id| > 0 ==> r == Success(Hex.HexValue(id))
  {
    match Hex.ParseHex(id)
    case None => Failure(NotKidForm)
    case Some(n) => Success(n)
  }

  /**
   * The NIDs of a list of nodes: `nodes.map((node) => id.getNID(node))`,
   * which throws at the first node without properties.
   */
  function NidsOf(h: Hasher, nodes: seq<Value>): (r: Result<seq<string>, Thrown>)
    ensures r.Failure? <==> exists i :: 0 <= i < |nodes| && NoProperties(nodes[i])
    ensures r.Failure? ==> r.error == NoAddress
    ensures r.Success? ==>
      && |r.value| == |nodes|
      && forall i :: 0 <= i < |nodes| ==> GetNID(h, nodes[i]) == Success(r.value[i])
  {
    if |nodes| == 0 then Success([])
    else
      match GetNID(h, nodes[0])
      case Failure(e) => Failure(e)
      case Success(nid) =>
        var rest := NidsOf(h, nodes[1..]);
        assert forall i :: 1 <= i < |nodes| ==> nodes[i] == nodes[1..][i - 1];
        match rest
        case Failure(e) => Failure(e)
        case Success(nids) => Success([nid] + nids)
  }

  /**
   * `naiveHash(kid, nids)`. The list is sorted (in place, see `NaiveHashSortsArgument`),
   * then indexed by the key's number modulo its length. An empty list makes the
   * index `NaN` and the result `undefined` (`None`), but `idToNum` still runs first.
   */
  function NaiveHash(kid: string, nids: seq<string>): Result<Option<string>, Thrown>
  {
    var sorted := StringSort.Sort(nids);
    match IdToNum(kid)
    case Failure(e) => Failure(e)
    case Success(n) =>
      if |sorted| == 0 then Success(None) else Success(Some(sorted[n % |sorted|]))
  }

  /** The owner naive placement chooses: the sorted list indexed by the key modulo its length. */
  lemma NaiveHashOwner(kid: string, nids: seq<string>)
    ensures NaiveHash(kid, nids).Failure? <==> IdToNum(kid).Failure?
    ensures IdToNum(kid).Success? && |nids| == 0 ==> NaiveHash(kid, nids) == Success(None)
    ensures IdToNum(kid).Success? && |nids| > 0 ==>
      var owner := NaiveHash(kid, nids);
      && owner.Success? && owner.value.Some?
      && owner.value.value in nids
      && |StringSort.Sort(nids)| == |nids|
      && owner.value.value == StringSort.Sort(nids)[IdToNum(kid).value % |nids|]
  {
    var sorted := StringSort.Sort(nids);
    assert |sorted| == |multiset(sorted)| == |multiset(nids)| == |nids|;
    if IdToNum(kid).Success? && |nids| > 0 {
      var k := IdToNum(kid).value % |nids|;
      assert sorted[k] in multiset(nids);
    }
  }

  /** The owner does not depend on the order in which the members are listed. */
  lemma NaiveHashIgnoresOrder(kid: string, a: seq<string>, b: seq<string>)
    requires multiset(a) == multiset(b)
    ensures NaiveHash(kid, a) == NaiveHash(kid, b)
  {
    StringSort.SortIgnoresOrder(a, b);
  }

  /** What a call of `naiveHash` returns, and the caller's array after it. */
  datatype NaiveHashCall = NaiveHashCall(owner: Result<Option<string>, Thrown>, after: seq<string>)

  /** `naiveHash(kid, nids)` seen from the caller: `nids.sort()` sorts the array it was given in place. */
  function NaiveHashInPlace(kid: string, nids: seq<string>): NaiveHashCall
  {
    NaiveHashCall(NaiveHash(kid, nids), StringSort.Sort(nids))
  }

  /**
   * After the call the caller's array is a sorted permutation of what it
   * held, unchanged when already sorted, and the owner is its element at the
   * key modulo the length.
   */
  lemma NaiveHashSortsArgument(kid: string, nids: seq<string>)
    ensures var c := NaiveHashInPlace(kid, nids);
      && StringSort.Sorted(c.after) && multiset(c.after) == multiset(nids)
      && (StringSort.Sorted(nids) ==> c.after == nids)
      && (c.owner.Success? && c.owner.value.Some? ==>
            |c.after| > 0 && c.owner.value.value == c.after[IdToNum(kid).value % |c.after|])
  {
    if StringSort.Sorted(nids) {
      StringSort.SortedUnique(StringSort.Sort(nids), nids);
    }
  }
}

=== FILE: js.dfy ===
/**
 * The slice of JavaScript's runtime the stores rely on: dynamically typed
 * values, truthiness, `String(v)` conversion, property lookup, and the
 * Node-style `callback(err, value)` convention.
 */
module Js {

  /** A JavaScript value. Numbers are integers here; objects are field lists. */
  datatype Value =
    | Undefined
    | Null
    | Bool(b: bool)
    | Num(n: int)
    | Str(s: string)
    | Arr(elems: seq<Value>)
    | Obj(fields: seq<(string, Value)>)

  /** `!!v`: the falsy values are undefined, null, false, 0 and the empty string. */
  predicate Truthy(v: Value)
  {
    match v
    case Undefined => false
    case Null => false
    case Bool(b) => b
    case Num(n) => n != 0
    case Str(s) => s != ""
    case Arr(_) => true
    case Obj(_) => true
  }

  /** `o[name]`: the first binding of `name` in an object, `undefined` otherwise. */
  function Field(v: Value, name: string): Value
  {
    match v
    case Obj(fields) => Lookup(fields, name)
    case _ => Undefined
  }

  function Lookup(fields: seq<(string, Value)>, name: string): (r: Value)
    ensures r != Undefined ==> exists i :: 0 <= i < |fields| && fields[i] == (name, r)
  {
    if |fields| == 0 then Undefined
    else if fields[0].0 == name then fields[0].1
    else Lookup(fields[1..], name)
  }

  /** The decimal digit character of `d`. */
  function DigitChar(d: nat): (c: char)
    requires d < 10
    ensures '0' <= c <= '9'
  {
    ['0', '1', '2', '3', '4', '5', '6', '7', '8', '9'][d]
  }

  /** The number a string of decimal digits denotes, most significant digit first. */
  function DecimalValue(s: string): nat
    requires forall i :: 0 <= i < |s| ==> '0' <= s[i] <= '9'
  {
    if |s| == 0 then 0
    else 10 * DecimalValue(s[..|s| - 1]) + ((s[|s| - 1] as int) - ('0' as int))
  }

  /**
   * Decimal notation of a natural number, most significant digit first: the
   * digits denote `n`, and only `0` itself starts with a zero.
   */
  function NatToDecimal(n: nat): (r: string)
    ensures |r| > 0
    ensures forall i :: 0 <= i < |r| ==> '0' <= r[i] <= '9'
    ensures DecimalValue(r) == n
    ensures r[0] == '0' ==> n == 0
  {
    if n < 10 then
      DigitValue(n);
      [DigitChar(n)]
    else
      var prefix := NatToDecimal(n / 10);
      var r := prefix + [DigitChar(n % 10)];
      DigitValue(n % 10);
      assert r[..|r| - 1] == prefix;
      r
  }

  lemma DigitValue(d: nat)
    requires d < 10
    ensures (DigitChar(d) as int) - ('0' as int) == d
  {
  }

  /**
   * `String(v)`. Arrays join their elements with commas, where `null` and
   * `undefined` elements print as the empty string; every object prints as
   * "[object Object]".
   */
  function ToString(v: Value): string
    decreases v, 1, 0
  {
    match v
    case Undefined => "undefined"
    case Null => "null"
    case Bool(b) => if b then "true" else "false"
    case Num(n) => if n < 0 then "-" + NatToDecimal(-n) else NatToDecimal(n)
    case Str(s) => s
    case Arr(elems) => JoinFrom(v, 0)
    case Obj(_) => "[object Object]"
  }

  /** `elems.slice(i).join(",")` for the elements of array `v`. */
  function JoinFrom(v: Value, i: nat): string
    requires v.Arr? && i <= |v.elems|
    decreases v, 0, |v.elems| - i
  {
    if i == |v.elems| then ""
    else
      var e := v.elems[i];
      var item := if e == Null || e == Undefined then "" else ToString(e);
      item + (if i + 1 == |v.elems| then "" else "," + JoinFrom(v, i + 1))
  }

  /** The first argument of a Node-style callback. */
  datatype ErrArg =
    | NoError                 // null
    | KeyNotFound             // new Error('Key not found')
    | EmptyObject             // the literal {} passed as "error" by a listing
    | FsError(code: string)   // an error from the file system, passed on as is

  /** The pair of arguments a callback receives. */
  datatype Reply = Reply(err: ErrArg, value: Value)

  /** An array of strings, as `readdir` and `Array.from(map.keys())` build. */
  function StrArray(names: seq<string>): Value
  {
    Arr(seq(|names|, i requires 0 <= i < |names| => Str(names[i])))
  }
}

=== FILE: js_map.dfy ===
/**
 * JavaScript's `Map`: a finite map that remembers insertion order.
 * `set` on a present key keeps its place; `delete` closes the gap.
 */
module JsMap {
  import opened Js

  datatype JsMap = JsMap(order: seq<Value>, vals: map<Value, Value>)

  predicate NoDuplicates(s: seq<Value>)
  {
    forall i, j :: 0 <= i < j < |s| ==> s[i] != s[j]
  }

  /** The insertion order lists every key exactly once. */
  predicate Valid(m: JsMap)
  {
    && NoDuplicates(m.order)
    && (forall k :: k in m.order ==> k in m.vals)
    && (forall k :: k in m.vals ==> k in m.order)
  }

  /** `new Map()`. */
  function Empty(): (m: JsMap)
    ensures Valid(m) && m.vals == map[]
  {
    JsMap([], map[])
  }

  /** `map.set(key, value)`. */
  function Set(m: JsMap, key: Value, value: Value): (r: JsMap)
    requires Valid(m)
    ensures Valid(r)
    ensures r.vals.Keys == m.vals.Keys + {key}
    ensures r.vals[key] == value
    ensures forall k :: k in m.vals && k != key ==> r.vals[k] == m.vals[k]
    ensures key in m.vals ==> r.order == m.order
    ensures key !in m.vals ==> r.order == m.order + [key]
  {
    if key in m.vals then JsMap(m.order, m.vals[key := value])
    else JsMap(m.order + [key], m.vals[key := value])
  }

  /** `s` with every occurrence of `x` dropped, the rest in order. */
  function Remove(s: seq<Value>, x: Value): (r: seq<Value>)
    ensures forall k :: k in r <==> k in s && k != x
    ensures NoDuplicates(s) ==> NoDuplicates(r)
    ensures x !in s ==> r == s
    ensures NoDuplicates(s) && x in s ==> |r| == |s| - 1
  {
    if |s| == 0 then []
    else
      var rest := Remove(s[1..], x);
      assert s == [s[0]] + s[1..];
      if s[0] == x then rest
      else
        var r := [s[0]] + rest;
        assert NoDuplicates(s) ==> NoDuplicates(r) by {
          if NoDuplicates(s) {
            assert s[0] !in s[1..];
            ConsNoDuplicates(s[0], rest);
          }
        }
        r
  }

  lemma ConsNoDuplicates(x: Value, s: seq<Value>)
    requires NoDuplicates(s) && x !in s
    ensures NoDuplicates([x] + s)
  {
    var r := [x] + s;
    forall i, j | 0 <= i < j < |r| ensures r[i] != r[j] {
      assert r[j] == s[j - 1];
    }
  }

  /** `map.delete(key)`. */
  function Delete(m: JsMap, key: Value): (r: JsMap)
    requires Valid(m)
    ensures Valid(r)
    ensures r.vals.Keys == m.vals.Keys - {key}
    ensures forall k :: k in r.vals ==> r.vals[k] == m.vals[k]
    ensures key !in m.vals ==> r == m
  {
    JsMap(Remove(m.order, key), m.vals - {key})
  }

  /** Deleting a key that `set` just added restores the map, insertion order included. */
  lemma {:induction false} DeleteUndoesSet(m: JsMap, key: Value, value: Value)
    requires Valid(m) && key !in m.vals
    ensures Delete(Set(m, key, value), key) == m
  {
    assert key !in m.order;
    RemoveAppended(m.order, key);
    assert m.vals[key := value] - {key} == m.vals;
  }

  lemma {:induction false} RemoveAppended(s: seq<Value>, x: Value)
    requires x !in s
    ensures Remove(s + [x], x) == s
  {
    if |s| > 0 {
      assert (s + [x])[1..] == s[1..] + [x];
      RemoveAppended(s[1..], x);
      assert s == [s[0]] + s[1..];
    }
  }

  /** `Array.from(map.keys())`. */
  function Keys(m: JsMap): (r: Value)
    requires Valid(m)
    ensures r.Arr? && NoDuplicates(r.elems)
    ensures forall k :: k in r.elems <==> k in m.vals
    ensures |r.elems| == |m.vals|
  {
    KeyCount(m);
    Arr(m.order)
  }

  lemma KeyCount(m: JsMap)
    requires Valid(m)
    ensures |m.order| == |m.vals|
  {
    DistinctCount(m.order);
    assert m.vals.Keys == set k | k in m.order;
  }

  /** A duplicate-free sequence has as many elements as its set. */
  lemma {:induction false} DistinctCount(s: seq<Value>)
    requires NoDuplicates(s)
    ensures |set k | k in s| == |s|
  {
    if |s| > 0 {
      DistinctCount(s[1..]);
      assert (set k | k in s) == (set k | k in s[1..]) + {s[0]};
      assert s[0] !in s[1..];
    }
  }
}

=== FILE: local_mem.dfy ===
/**
 * The process-wide in-memory store (distribution/local/mem.js): one `Map`
 * shared by every caller in the process, here the state `s` threaded through
 * each operation.
 */
module LocalMem {
  import opened Js
  import opened JsMap
  import Id

  /** The store after a call and the arguments the callback received. */
  datatype MemResult = MemResult(store: JsMap, reply: Reply)

  /**
   * `put(value, key, callback)`: any falsy key (null, undefined, false, 0, "")
   * is replaced by the content address of the value.
   */
  function Put(h: Id.Hasher, s: JsMap, value: Value, key: Value): (r: MemResult)
    requires Valid(s)
    ensures Valid(r.store)
    ensures r.reply == Reply(NoError, value)
    ensures var k := if Truthy(key) then key else Str(Id.GetID(h, value));
            && r.store.vals.Keys == s.vals.Keys + {k}
            && r.store.vals[k] == value
            && forall j :: j in s.vals && j != k ==> r.store.vals[j] == s.vals[j]
  {
    var k := if !Truthy(key) then Str(Id.GetID(h, value)) else key;
    MemResult(Set(s, k, value), Reply(NoError, value))
  }

  /**
   * `get(key, callback)`: `null` lists every key, on the success channel;
   * otherwise the stored value or a `Key not found` error.
   */
  function Get(s: JsMap, key: Value): (r: Reply)
    requires Valid(s)
    ensures key == Null ==> r.err == NoError && r.value.Arr? && NoDuplicates(r.value.elems)
                            && forall k :: k in r.value.elems <==> k in s.vals
    ensures key != Null && key in s.vals ==> r == Reply(NoError, s.vals[key])
    ensures key != Null && key !in s.vals ==> r == Reply(KeyNotFound, Null)
  {
    if key == Null then Reply(NoError, Keys(s))
    else if key in s.vals then Reply(NoError, s.vals[key])
    else Reply(KeyNotFound, Null)
  }

  /** `del(key, callback)`: removes the key and hands back its value. */
  function Del(s: JsMap, key: Value): (r: MemResult)
    requires Valid(s)
    ensures Valid(r.store)
    ensures key in s.vals ==> r.reply == Reply(NoError, s.vals[key])
                              && r.store.vals.Keys == s.vals.Keys - {key}
                              && forall j :: j in r.store.vals ==> r.store.vals[j] == s.vals[j]
    ensures key !in s.vals ==> r.reply == Reply(KeyNotFound, Null) && r.store == s
  {
    if key in s.vals then MemResult(Delete(s, key), Reply(NoError, s.vals[key]))
    else MemResult(s, Reply(KeyNotFound, Null))
  }

  /** A value put under a truthy key reads back under that key. */
  lemma PutThenGet(h: Id.Hasher, s: JsMap, value: Value, key: Value)
    requires Valid(s) && Truthy(key)
    ensures Get(Put(h, s, value, key).store, key) == Reply(NoError, value)
  {
  }

  /** A value put without a key reads back under its content address. */
  lemma PutContentAddressed(h: Id.Hasher, s: JsMap, value: Value, key: Value)
    requires Valid(s) && !Truthy(key)
    ensures Get(Put(h, s, value, key).store, Str(Id.GetID(h, value))) == Reply(NoError, value)
  {
  }

  /**
   * Deleting a freshly added key undoes the put completely, insertion order
   * included, and hands back the value.
   */
  lemma DelUndoesPut(h: Id.Hasher, s: JsMap, value: Value, key: Value)
    requires Valid(s) && Truthy(key) && key !in s.vals
    ensures Del(Put(h, s, value, key).store, key) == MemResult(s, Reply(NoError, value))
  {
    DeleteUndoesSet(s, key, value);
  }
}

=== FILE: local_store.dfy ===
/**
 * The node-local file store (distribution/local/store.js): one directory,
 * created when the module loads. `put` and `del` are the shared file-store
 * operations; `get` adds a listing on the success channel and accepts an
 * object whose `key` field names the entry.
 */
module LocalStore {
  import opened Wrappers
  import opened Js
  import opened FileStore
  import Id

  /**
   * The key `get` looks up: `key.key` when `key` is an object with a truthy
   * `key` field. Arrays are objects too, but carry no named fields here.
   * A non-null key never unwraps to `null`, so `get` lists the directory
   * only when called with `null` itself.
   */
  function ActualKey(key: Value): (k: Value)
    ensures key != Null ==> k != Null
  {
    if key.Obj? && Truthy(Field(key, "key")) then Field(key, "key") else key
  }

  /**
   * `get(key, callback)`: `null` lists the directory with a null error; any
   * other key is read from its sanitized file.
   */
  function Get(d: Dir, key: Value, listing: Listing, readFault: Fault): (r: Reply)
    requires key == Null && listing.Listed? ==> Enumerates(listing.names, d)
    ensures key == Null && listing.Listed? ==> r.err == NoError && ListsDir(r.value, d)
    ensures key == Null && listing.ListFailed? ==> r == Reply(FsError(listing.code), Null)
    ensures key != Null ==> r == GetKey(d, ActualKey(key), readFault)
  {
    if key == Null then
      match listing
      case ListFailed(code) => Reply(FsError(code), Null)
      case Listed(names) =>
        var v := StrArray(names);
        assert forall n :: n in d ==> Str(n) in v.elems by {
          forall n | n in d ensures Str(n) in v.elems {
            var i :| 0 <= i < |names| && names[i] == n;
            assert v.elems[i] == Str(n);
          }
        }
        Reply(NoError, v)
    else
      GetKey(d, ActualKey(key), readFault)
  }

  /** `get({key: k})` reads the same entry as `get(k)`. */
  lemma GetThroughKeyField(d: Dir, k: string, listing: Listing, readFault: Fault)
    requires k != ""
    ensures Get(d, Obj([("key", Str(k))]), listing, readFault) == Get(d, Str(k), listing, readFault)
  {
    assert Field(Obj([("key", Str(k))]), "key") == Str(k);
  }

  /**
   * After a successful put, `get` of the same key returns the value, for
   * every key `get` does not unwrap.
   */
  lemma PutThenGet(h: Id.Hasher, d: Dir, value: Value, key: Value, listing: Listing)
    requires key != Null && ToString(key) != "" && !(key.Obj? && Truthy(Field(key, "key")))
    ensures Get(FileStore.Put(h, d, value, key, None).dir, key, listing, None) == Reply(NoError, value)
  {
    FileStore.PutThenGet(h, d, value, key);
  }

  /**
   * `put` and `get` disagree on an object with a truthy `key` field: `put`
   * writes the file of `String(key)`, `[object Object]`, while `get` reads
   * the file of the field, so the value just put is not found whenever the
   * field's name differs from that file's, e.g. for `{key: "a"}`.
   */
  lemma KeyFieldPutMisses(h: Id.Hasher, value: Value, k: string, listing: Listing)
    requires k != "" && |k| != 15
    ensures var key := Obj([("key", Str(k))]);
            Get(FileStore.Put(h, map[], value, key, None).dir, key, listing, None) == Reply(KeyNotFound, Null)
  {
    var key := Obj([("key", Str(k))]);
    ObjectKeyFile(h, value, key);
    var dir := FileStore.Put(h, map[], value, key, None).dir;
    assert ActualKey(key) == Str(k) by {
      assert Field(key, "key") == Str(k);
    }
    assert |GetFilePath(Str(k))| == |k|;
    assert GetFilePath(Str(k)) !in dir;
  }

  /** Any object key is written to one file, whose name is as long as `[object Object]`. */
  lemma ObjectKeyFile(h: Id.Hasher, value: Value, key: Value)
    requires key.Obj?
    ensures |PutName(h, value, key)| == 15
    ensures FileStore.Put(h, map[], value, key, None).dir.Keys == {PutName(h, value, key)}
  {
    assert ToString(key) == "[object Object]";
  }
}

=== FILE: rendezvous.dfy ===
/**
 * Rendezvous (highest random weight) placement: `rendezvousHash` in
 * distribution/util/id.js scores every member by hashing the key with the
 * member's id and keeps the first member with the highest score.
 */
module Rendezvous {
  import opened Wrappers
  import Js
  import Hex
  import Id

  /** A JavaScript number produced by `parseInt`: a natural, or NaN. */
  datatype Score = NaN | Finite(n: nat)

  /** `parseInt(getID(kid + nid).substring(0, 16), 16)`. */
  function ScoreOf(h: Id.Hasher, kid: string, nid: string): Score
  {
    match Hex.Position(Id.GetID(h, Js.Str(kid + nid)))
    case None => NaN
    case Some(n) => Finite(n)
  }

  /** The score of every member, in list order. */
  function Scores(h: Id.Hasher, kid: string, nids: seq<string>): seq<Score>
  {
    seq(|nids|, i requires 0 <= i < |nids| => ScoreOf(h, kid, nids[i]))
  }

  /**
   * Member `w` wins among the first `n` scores. Because `NaN > x` is false for
   * every `x`, a NaN first score is never displaced and NaN scores later on are
   * never chosen; otherwise the winner has the highest score and, since the
   * comparison is strict, no earlier member reaches it.
   */
  predicate WinsPrefix(sc: seq<Score>, n: int, w: int)
  {
    && 0 <= w < n <= |sc|
    && if sc[0].NaN? then w == 0
       else
         && sc[w].Finite?
         && (forall j :: 0 <= j < n && sc[j].Finite? ==> sc[j].n <= sc[w].n)
         && (forall j :: 0 <= j < w && sc[j].Finite? ==> sc[j].n < sc[w].n)
  }

  predicate IsWinner(sc: seq<Score>, w: int)
  {
    WinsPrefix(sc, |sc|, w)
  }

  /** `rendezvousHash(kid, nids)`: the winning member, or `null` for an empty list. */
  method RendezvousHash(h: Id.Hasher, kid: string, nids: seq<string>) returns (chosen: Option<string>)
    ensures |nids| == 0 <==> chosen == None
    ensures |nids| > 0 ==> exists w :: IsWinner(Scores(h, kid, nids), w) && chosen == Some(nids[w])
  {
    ghost var sc := Scores(h, kid, nids);
    var maxHash: Option<Score> := None;
    chosen := None;
    ghost var w := 0;
    var i := 0;
    while i < |nids|
      invariant 0 <= i <= |nids|
      invariant i == 0 ==> maxHash == None && chosen == None
      invariant i > 0 ==> WinsPrefix(sc, i, w) && maxHash == Some(sc[w]) && chosen == Some(nids[w])
    {
      var numericalHash := ScoreOf(h, kid, nids[i]);
      if maxHash == None
         || (numericalHash.Finite? && maxHash.value.Finite? && numericalHash.n > maxHash.value.n)
      {
        if i == 0 { FirstLeads(sc); } else { Overtakes(sc, i, w); }
        maxHash := Some(numericalHash);
        chosen := Some(nids[i]);
        w := i;
      } else {
        StaysAhead(sc, i, w);
      }
      i := i + 1;
    }
  }

  lemma FirstLeads(sc: seq<Score>)
    requires |sc| > 0
    ensures WinsPrefix(sc, 1, 0)
  {
  }

  /** A strictly higher score takes the lead. */
  lemma Overtakes(sc: seq<Score>, i: nat, w: nat)
    requires WinsPrefix(sc, i, w) && i < |sc|
    requires sc[i].Finite? && sc[w].Finite? && sc[i].n > sc[w].n
    ensures WinsPrefix(sc, i + 1, i)
  {
  }

  /** Any other score, NaN or not higher, leaves the leader in place. */
  lemma StaysAhead(sc: seq<Score>, i: nat, w: nat)
    requires WinsPrefix(sc, i, w) && i < |sc|
    requires !(sc[i].Finite? && sc[w].Finite? && sc[i].n > sc[w].n)
    ensures WinsPrefix(sc, i + 1, w)
  {
  }

  /** The winner is unique, so the contract above determines the chosen member. */
  lemma WinnerUnique(sc: seq<Score>, v: int, w: int)
    requires IsWinner(sc, v) && IsWinner(sc, w)
    ensures v == w
  {
  }

  /** `s` without its element at index `k`. */
  function Without<T>(s: seq<T>, k: nat): (r: seq<T>)
    requires k < |s|
    ensures |r| == |s| - 1
    ensures forall j {:trigger r[j]} :: 0 <= j < k ==> r[j] == s[j]
    ensures forall j {:trigger r[j]} :: k <= j < |r| ==> r[j] == s[j + 1]
  {
    s[..k] + s[k + 1..]
  }

  /** Removing a member's id removes exactly that member's score. */
  lemma ScoresWithout(h: Id.Hasher, kid: string, nids: seq<string>, k: nat)
    requires k < |nids|
    ensures Scores(h, kid, Without(nids, k)) == Without(Scores(h, kid, nids), k)
  {
    var a, b := Scores(h, kid, Without(nids, k)), Without(Scores(h, kid, nids), k);
    forall j | 0 <= j < |a| ensures a[j] == b[j] {
      if j < k {
        assert b[j] == Scores(h, kid, nids)[j];
      } else {
        assert b[j] == Scores(h, kid, nids)[j + 1];
      }
    }
  }

  /**
   * Removing a member other than the winner does not change the winner, as
   * long as every score is a number (no digest prefix parses to NaN).
   */
  lemma {:induction false} WinnerStableUnderRemoval(sc: seq<Score>, w: nat, k: nat)
    requires IsWinner(sc, w) && k < |sc| && k != w
    requires forall j :: 0 <= j < |sc| ==> sc[j].Finite?
    ensures IsWinner(Without(sc, k), if k < w then w - 1 else w)
  {
    var r := Without(sc, k);
    var w' := if k < w then w - 1 else w;
    assert r[w'] == sc[w];
    assert r[0].Finite?;
    forall j | 0 <= j < |r| ensures r[j].n <= r[w'].n {
      if j < k { assert r[j] == sc[j]; } else { assert r[j] == sc[j + 1]; }
    }
    forall j | 0 <= j < w' ensures r[j].n < r[w'].n {
      if j < k { assert r[j] == sc[j]; } else { assert r[j] == sc[j + 1]; }
    }
  }

  /** Every score is a number when no member's digest prefix parses to NaN. */
  lemma ScoresFinite(h: Id.Hasher, kid: string, nids: seq<string>)
    requires forall j :: 0 <= j < |nids| ==> ScoreOf(h, kid, nids[j]).Finite?
    ensures forall j :: 0 <= j < |nids| ==> Scores(h, kid, nids)[j].Finite?
  {
  }

  /** After removing index `k`, the element at `w` sits one place earlier when `k` was before it. */
  lemma WithoutShifts<T>(s: seq<T>, k: nat, w: nat)
    requires k < |s| && w < |s| && k != w
    ensures Without(s, k)[if k < w then w - 1 else w] == s[w]
  {
  }

  /**
   * When a member other than the key's owner leaves, the key keeps its owner.
   */
  lemma OwnerSurvivesRemoval(h: Id.Hasher, kid: string, nids: seq<string>, w: nat, k: nat)
    requires IsWinner(Scores(h, kid, nids), w) && k < |nids| && k != w
    requires forall j :: 0 <= j < |nids| ==> ScoreOf(h, kid, nids[j]).Finite?
    ensures var rest := Without(nids, k);
            var w' := if k < w then w - 1 else w;
            IsWinner(Scores(h, kid, rest), w') && rest[w'] == nids[w]
  {
    ScoresFinite(h, kid, nids);
    ScoresWithout(h, kid, nids, k);
    WinnerStableUnderRemoval(Scores(h, kid, nids), w, k);
    WithoutShifts(nids, k, w);
  }
}

=== FILE: ring.dfy ===
/**
 * Consistent hashing (`consistentHash` in distribution/util/id.js). The key
 * and every member are placed on a ring by the number their first sixteen hex
 * characters denote; the owner is the member that follows the key on the ring.
 */
module Ring {
  import opened Wrappers
  import Hex

  /**
   * An element of the array the source sorts: an id, its ring position, and
   * its index in the combined list. A stable sort by position keeps equal
   * positions in list order, which is the same as sorting by (num, pos).
   */
  datatype Point = Point(nid: string, num: nat, pos: nat)

  predicate Before(p: Point, q: Point)
  {
    p.num < q.num || (p.num == q.num && p.pos < q.pos)
  }

  predicate Ascending(s: seq<Point>)
  {
    forall i, j :: 0 <= i < j < |s| ==> Before(s[i], s[j])
  }

  predicate DistinctPos(s: seq<Point>)
  {
    forall i, j :: 0 <= i < j < |s| ==> s[i].pos != s[j].pos
  }

  function InsertPoint(x: Point, s: seq<Point>): (r: seq<Point>)
    requires Ascending(s)
    requires forall i :: 0 <= i < |s| ==> s[i].pos != x.pos
    ensures Ascending(r)
    ensures multiset(r) == multiset(s) + multiset{x}
  {
    if |s| == 0 then [x]
    else if Before(x, s[0]) then
      InsertFront(x, s);
      [x] + s
    else
      var rest := InsertPoint(x, s[1..]);
      InsertBehindHead(x, s, rest);
      [s[0]] + rest
  }

  /** A point before the head of an ascending list is before all of it. */
  lemma InsertFront(x: Point, s: seq<Point>)
    requires Ascending(s) && |s| > 0 && Before(x, s[0])
    ensures Ascending([x] + s)
  {
    forall j | 0 <= j < |s| ensures Before(x, s[j]) {
      if j > 0 { assert Before(s[0], s[j]); }
    }
    ConsAscending(x, s);
  }

  /** A point that goes after the head is inserted into the tail. */
  lemma InsertBehindHead(x: Point, s: seq<Point>, rest: seq<Point>)
    requires Ascending(s) && |s| > 0 && !Before(x, s[0]) && x.pos != s[0].pos
    requires Ascending(rest) && multiset(rest) == multiset(s[1..]) + multiset{x}
    ensures Ascending([s[0]] + rest)
    ensures multiset([s[0]] + rest) == multiset(s) + multiset{x}
  {
    forall j | 0 <= j < |rest| ensures Before(s[0], rest[j]) {
      assert rest[j] in multiset(rest);
    }
    ConsAscending(s[0], rest);
    assert s == [s[0]] + s[1..];
  }

  /** A point before every point of an ascending list can go in front of it. */
  lemma ConsAscending(y: Point, s: seq<Point>)
    requires Ascending(s)
    requires forall j :: 0 <= j < |s| ==> Before(y, s[j])
    ensures Ascending([y] + s)
  {
    var r := [y] + s;
    forall i, j | 0 <= i < j < |r| ensures Before(r[i], r[j]) {
      if i > 0 { assert r[i] == s[i - 1] && r[j] == s[j - 1]; } else { assert r[j] == s[j - 1]; }
    }
  }

  /** `combined.sort((a, b) => a.num - b.num)`, a stable sort by ring position. */
  function SortByNum(s: seq<Point>): (r: seq<Point>)
    requires DistinctPos(s)
    ensures Ascending(r)
    ensures multiset(r) == multiset(s)
    ensures |r| == |s|
  {
    if |s| == 0 then []
    else
      var rest := SortByNum(s[1..]);
      HeadPosFresh(s, rest);
      var r := InsertPoint(s[0], rest);
      assert multiset(r) == multiset(s) by { assert s == [s[0]] + s[1..]; }
      assert |r| == |s| by { assert |multiset(r)| == |multiset(s)|; }
      r
  }

  /** The head's position is not taken by any point of a permutation of the tail. */
  lemma HeadPosFresh(s: seq<Point>, rest: seq<Point>)
    requires DistinctPos(s) && |s| > 0 && multiset(rest) == multiset(s[1..])
    ensures forall i :: 0 <= i < |rest| ==> rest[i].pos != s[0].pos
  {
    forall i | 0 <= i < |rest| ensures rest[i].pos != s[0].pos {
      assert rest[i] in multiset(s[1..]);
    }
  }

  /** Every id of the call has a ring position (no `NaN` reaches the comparator). */
  predicate RingDefined(kid: string, nids: seq<string>)
  {
    |nids| == 0 || (Hex.Position(kid).Some? && forall i :: 0 <= i < |nids| ==> Hex.Position(nids[i]).Some?)
  }

  /** The ring positions of the members. */
  function Nums(nids: seq<string>): seq<nat>
    requires forall i :: 0 <= i < |nids| ==> Hex.Position(nids[i]).Some?
  {
    seq(|nids|, i requires 0 <= i < |nids| => Hex.Position(nids[i]).value)
  }

  /** `nidsNum`: the members as points, tagged with their list index. */
  function Points(nids: seq<string>): seq<Point>
    requires forall i :: 0 <= i < |nids| ==> Hex.Position(nids[i]).Some?
  {
    var nums := Nums(nids);
    seq(|nids|, i requires 0 <= i < |nids| => Point(nids[i], nums[i], i))
  }

  /** `findIndex((element) => element.nid === kid)`: the first match, or -1. */
  function FindIndex(ring: seq<Point>, kid: string): (i: int)
    ensures -1 <= i < |ring|
    ensures i == -1 <==> forall j :: 0 <= j < |ring| ==> ring[j].nid != kid
    ensures i >= 0 ==> ring[i].nid == kid && forall j :: 0 <= j < i ==> ring[j].nid != kid
  {
    if |ring| == 0 then -1
    else if ring[0].nid == kid then 0
    else
      var i := FindIndex(ring[1..], kid);
      if i == -1 then -1 else i + 1
  }

  /**
   * The key's own point. With no members the sort never calls the comparator,
   * so an unparsable key is harmless; its position is then irrelevant.
   */
  function KeyPoint(kid: string, n: nat): Point
  {
    Point(kid, if Hex.Position(kid).Some? then Hex.Position(kid).value else 0, n)
  }

  /** The array `consistentHash` sorts: members first, then the key. */
  function Combined(kid: string, nids: seq<string>): (c: seq<Point>)
    requires RingDefined(kid, nids)
    ensures |c| == |nids| + 1
    ensures DistinctPos(c)
  {
    Points(nids) + [KeyPoint(kid, |nids|)]
  }

  /** `consistentHash(kid, nids)`. */
  function ConsistentHash(kid: string, nids: seq<string>): (r: string)
    requires RingDefined(kid, nids)
    ensures |nids| == 0 ==> r == kid
    ensures r == kid || r in nids
  {
    var ring := SortByNum(Combined(kid, nids));
    var next := NextIndex(ring, kid);
    assert ring[next].nid == kid || ring[next].nid in nids by {
      RingIds(kid, nids, ring, next);
    }
    assert |nids| == 0 ==> ring[next].nid == kid by {
      RingIds(kid, nids, ring, next);
    }
    ring[next].nid
  }

  /** Every point of a sorted ring carries the key or one of the members. */
  lemma RingIds(kid: string, nids: seq<string>, ring: seq<Point>, q: nat)
    requires RingDefined(kid, nids)
    requires multiset(ring) == multiset(Combined(kid, nids)) && q < |ring|
    ensures ring[q].nid == kid || ring[q].nid in nids
    ensures |nids| == 0 ==> ring[q].nid == kid
  {
    var c := Combined(kid, nids);
    assert ring[q] in multiset(c);
    var k :| 0 <= k < |c| && c[k] == ring[q];
    if k < |nids| {
      assert c[k] == Points(nids)[k];
    }
  }

  /** `(index + 1) % combined.length`: the element after the key, wrapping around. */
  function NextIndex(ring: seq<Point>, kid: string): (k: nat)
    requires |ring| > 0
    ensures k < |ring|
    ensures k == if FindIndex(ring, kid) + 1 == |ring| then 0 else FindIndex(ring, kid) + 1
  {
    var i := FindIndex(ring, kid);
    WrapAround(i + 1, |ring|);
    (i + 1) % |ring|
  }

  /** For `0 <= a <= n`, `a % n` is `a`, except that `n` itself wraps to 0. */
  lemma WrapAround(a: int, n: int)
    requires 0 <= a <= n && n > 0
    ensures a % n == if a == n then 0 else a
  {
  }


  /** Ring order on members: by position, ties by list index. */
  predicate KeyLe(nums: seq<nat>, i: int, j: int)
    requires 0 <= i < |nums| && 0 <= j < |nums|
  {
    nums[i] < nums[j] || (nums[i] == nums[j] && i <= j)
  }

  /**
   * Member `i` is the key's successor on the ring: the first member, in ring
   * order, whose position is strictly greater than the key's, or, when no member
   * is past the key, the first member of the ring (the walk wraps around).
   */
  predicate IsRingSuccessor(kidNum: nat, nums: seq<nat>, i: int)
  {
    && 0 <= i < |nums|
    && if exists j :: 0 <= j < |nums| && nums[j] > kidNum then
         && nums[i] > kidNum
         && forall j :: 0 <= j < |nums| && nums[j] > kidNum ==> KeyLe(nums, i, j)
       else
         forall j :: 0 <= j < |nums| ==> KeyLe(nums, i, j)
  }

  /** At most one member is the successor. */
  lemma RingSuccessorUnique(kidNum: nat, nums: seq<nat>, i: int, j: int)
    requires IsRingSuccessor(kidNum, nums, i) && IsRingSuccessor(kidNum, nums, j)
    ensures i == j
  {
    if exists m :: 0 <= m < |nums| && nums[m] > kidNum {
      assert KeyLe(nums, i, j) && KeyLe(nums, j, i);
    } else {
      assert KeyLe(nums, i, j) && KeyLe(nums, j, i);
    }
  }

  /** Points tagged with their list index, followed by the key's point at the end. */
  predicate Tagged(ps: seq<Point>, key: Point)
  {
    && key.pos == |ps|
    && forall i :: 0 <= i < |ps| ==> ps[i].pos == i
  }

  /** Each point of the sorted ring is the key or a member, and each member is in it. */
  lemma RingElements(ps: seq<Point>, key: Point, ring: seq<Point>)
    requires multiset(ring) == multiset(ps + [key])
    ensures |ring| == |ps| + 1
    ensures forall q :: 0 <= q < |ring| ==> ring[q] == key || exists m :: 0 <= m < |ps| && ring[q] == ps[m]
    ensures forall j :: 0 <= j < |ps| ==> exists q :: 0 <= q < |ring| && ring[q] == ps[j]
  {
    var c := ps + [key];
    assert |ring| == |multiset(ring)| == |c|;
    forall q | 0 <= q < |ring| ensures ring[q] == key || exists m :: 0 <= m < |ps| && ring[q] == ps[m] {
      assert ring[q] in multiset(c);
      var k :| 0 <= k < |c| && c[k] == ring[q];
      if k < |ps| { assert ring[q] == ps[k]; }
    }
    forall j | 0 <= j < |ps| ensures exists q :: 0 <= q < |ring| && ring[q] == ps[j] {
      assert c[j] == ps[j];
      assert c[j] in multiset(ring);
    }
  }

  /** The point right after the key is the least point beyond it. */
  lemma {:induction false} LeastAfterKey(ps: seq<Point>, key: Point, ring: seq<Point>, p: nat) returns (m: nat)
    requires Tagged(ps, key)
    requires Ascending(ring) && multiset(ring) == multiset(ps + [key])
    requires p + 1 < |ring| && ring[p] == key
    ensures m < |ps| && ring[p + 1] == ps[m] && ps[m].num > key.num
    ensures forall j :: 0 <= j < |ps| && ps[j].num > key.num ==> !Before(ps[j], ps[m])
  {
    RingElements(ps, key, ring);
    var e := ring[p + 1];
    assert Before(ring[p], e);
    m :| 0 <= m < |ps| && e == ps[m];
    forall j | 0 <= j < |ps| && ps[j].num > key.num ensures !Before(ps[j], ps[m]) {
      var q :| 0 <= q < |ring| && ring[q] == ps[j];
      if q > p + 1 { assert Before(ring[p + 1], ring[q]); }
    }
  }

  /** When the key is last, every member is at or before it and the first point is the least. */
  lemma {:induction false} LeastOverall(ps: seq<Point>, key: Point, ring: seq<Point>, p: nat) returns (m: nat)
    requires Tagged(ps, key) && |ps| > 0
    requires Ascending(ring) && multiset(ring) == multiset(ps + [key])
    requires p + 1 == |ring| && ring[p] == key
    ensures m < |ps| && ring[0] == ps[m]
    ensures forall j :: 0 <= j < |ps| ==> ps[j].num <= key.num && !Before(ps[j], ps[m])
  {
    RingElements(ps, key, ring);
    var e := ring[0];
    assert Before(e, ring[p]);
    m :| 0 <= m < |ps| && e == ps[m];
    forall j | 0 <= j < |ps| ensures ps[j].num <= key.num && !Before(ps[j], ps[m]) {
      var q :| 0 <= q < |ring| && ring[q] == ps[j];
      assert q != p;
      assert Before(ring[q], ring[p]);
      if q > 0 { assert Before(ring[0], ring[q]); }
    }
  }

  /** In the sorted ring of a key that is not a member, `findIndex` finds the key's own point. */
  lemma KeyFound(kid: string, nids: seq<string>, ring: seq<Point>)
    requires RingDefined(kid, nids) && kid !in nids
    requires multiset(ring) == multiset(Combined(kid, nids))
    ensures 0 <= FindIndex(ring, kid) && ring[FindIndex(ring, kid)] == KeyPoint(kid, |nids|)
  {
    var key := KeyPoint(kid, |nids|);
    var ps := Points(nids);
    RingElements(ps, key, ring);
    assert (ps + [key])[|nids|] == key;
    assert key in multiset(ring);
    var i := FindIndex(ring, kid);
    assert i != -1;
  }

  /** Members as points: point `j` has position `nums[j]` and index `j`. */
  predicate PointsOf(ps: seq<Point>, nums: seq<nat>)
  {
    && |ps| == |nums|
    && forall j :: 0 <= j < |ps| ==> ps[j].num == nums[j] && ps[j].pos == j
  }

  /** The least member beyond the key, in ring order, is the successor. */
  lemma SuccessorBeyondKey(ps: seq<Point>, nums: seq<nat>, kn: nat, m: nat)
    requires PointsOf(ps, nums) && m < |ps|
    requires ps[m].num > kn
    requires forall j :: 0 <= j < |ps| && ps[j].num > kn ==> !Before(ps[j], ps[m])
    ensures IsRingSuccessor(kn, nums, m)
  {
  }

  /** With no member beyond the key, the least member overall is the successor. */
  lemma SuccessorOverall(ps: seq<Point>, nums: seq<nat>, kn: nat, m: nat)
    requires PointsOf(ps, nums) && m < |ps|
    requires forall j :: 0 <= j < |ps| ==> ps[j].num <= kn && !Before(ps[j], ps[m])
    ensures IsRingSuccessor(kn, nums, m)
  {
  }

  /** Whichever way the walk goes, the point after the key is the successor. */
  lemma NextIsSuccessor(ps: seq<Point>, nums: seq<nat>, key: Point, ring: seq<Point>, p: nat) returns (m: nat)
    requires Tagged(ps, key) && PointsOf(ps, nums) && |ps| > 0
    requires Ascending(ring) && multiset(ring) == multiset(ps + [key])
    requires p < |ring| && ring[p] == key
    ensures m < |ps| && IsRingSuccessor(key.num, nums, m)
    ensures ring[if p + 1 == |ring| then 0 else p + 1] == ps[m]
  {
    if p + 1 < |ring| {
      m := LeastAfterKey(ps, key, ring, p);
      SuccessorBeyondKey(ps, nums, key.num, m);
    } else {
      m := LeastOverall(ps, key, ring, p);
      SuccessorOverall(ps, nums, key.num, m);
    }
  }

  /** The combined array is the tagged member points followed by the key's point. */
  lemma CombinedShape(kid: string, nids: seq<string>)
    requires RingDefined(kid, nids) && |nids| > 0
    ensures var ps := Points(nids);
            var key := KeyPoint(kid, |nids|);
            && Combined(kid, nids) == ps + [key]
            && PointsOf(ps, Nums(nids)) && Tagged(ps, key)
            && key.num == Hex.Position(kid).value
            && forall j :: 0 <= j < |nids| ==> ps[j].nid == nids[j]
  {
  }

  /** The member found one step past the key in a sorted ring is the successor. */
  lemma SuccessorInRing(kid: string, nids: seq<string>, ring: seq<Point>) returns (m: nat)
    requires RingDefined(kid, nids) && |nids| > 0 && kid !in nids
    requires Ascending(ring) && multiset(ring) == multiset(Combined(kid, nids))
    ensures m < |nids| && |ring| > 0
    ensures IsRingSuccessor(Hex.Position(kid).value, Nums(nids), m)
    ensures ring[NextIndex(ring, kid)].nid == nids[m]
  {
    var ps := Points(nids);
    var nums := Nums(nids);
    var key := KeyPoint(kid, |nids|);
    var p := FindIndex(ring, kid);
    assert Tagged(ps, key) && PointsOf(ps, nums) && |ps| > 0
        && multiset(ring) == multiset(ps + [key])
        && key.num == Hex.Position(kid).value
        && 0 <= p < |ring| && ring[p] == key by {
      CombinedShape(kid, nids);
      KeyFound(kid, nids, ring);
    }
    m := NextIsSuccessor(ps, nums, key, ring, p);
    var q := if p + 1 == |ring| then 0 else p + 1;
    assert NextIndex(ring, kid) == q;
    assert ring[q].nid == nids[m] by {
      assert ring[q] == ps[m];
      assert ps[m] == Point(nids[m], nums[m], m);
    }
  }

  /**
   * For a key that is not itself a member, `consistentHash` returns the
   * member that succeeds the key on the ring.
   */
  lemma {:induction false} ConsistentHashIsRingSuccessor(kid: string, nids: seq<string>)
    requires RingDefined(kid, nids) && |nids| > 0 && kid !in nids
    ensures exists i :: IsRingSuccessor(Hex.Position(kid).value, Nums(nids), i)
                        && ConsistentHash(kid, nids) == nids[i]
  {
    var ring := SortByNum(Combined(kid, nids));
    var m := SuccessorInRing(kid, nids, ring);
    assert ConsistentHash(kid, nids) == ring[NextIndex(ring, kid)].nid;
  }
}

=== FILE: string_sort.dfy ===
/**
 * `Array.prototype.sort()` without a comparator on an array of strings:
 * elements are ordered by comparing their character codes lexicographically.
 */
module StringSort {

  /** `a <= b` in JavaScript's string order: a prefix sorts first. */
  predicate LexLe(a: string, b: string)
  {
    if |a| == 0 then true
    else if |b| == 0 then false
    else if a[0] != b[0] then a[0] < b[0]
    else LexLe(a[1..], b[1..])
  }

  lemma LexLeReflexive(a: string)
    ensures LexLe(a, a)
  {
  }

  lemma LexLeTotal(a: string, b: string)
    ensures LexLe(a, b) || LexLe(b, a)
  {
  }

  lemma {:induction false} LexLeAntisymmetric(a: string, b: string)
    requires LexLe(a, b) && LexLe(b, a)
    ensures a == b
  {
    if |a| > 0 && |b| > 0 {
      LexLeAntisymmetric(a[1..], b[1..]);
      assert a == [a[0]] + a[1..];
      assert b == [b[0]] + b[1..];
    }
  }

  lemma {:induction false} LexLeTransitive(a: string, b: string, c: string)
    requires LexLe(a, b) && LexLe(b, c)
    ensures LexLe(a, c)
  {
    if |a| > 0 && |b| > 0 && |c| > 0 && a[0] == b[0] == c[0] {
      LexLeTransitive(a[1..], b[1..], c[1..]);
    }
  }

  predicate Sorted(s: seq<string>)
  {
    forall i, j :: 0 <= i < j < |s| ==> LexLe(s[i], s[j])
  }

  /** Inserts `x` in front of the first element it sorts before. */
  function Insert(x: string, s: seq<string>): (r: seq<string>)
    requires Sorted(s)
    ensures Sorted(r)
    ensures multiset(r) == multiset(s) + multiset{x}
  {
    if |s| == 0 then [x]
    else if LexLe(x, s[0]) then
      InsertFront(x, s);
      [x] + s
    else
      var rest := Insert(x, s[1..]);
      InsertBehindHead(x, s, rest);
      [s[0]] + rest
  }

  /** A string at or before the head of a sorted list is at or before all of it. */
  lemma InsertFront(x: string, s: seq<string>)
    requires Sorted(s) && |s| > 0 && LexLe(x, s[0])
    ensures Sorted([x] + s)
  {
    forall j | 0 <= j < |s| ensures LexLe(x, s[j]) {
      if j > 0 { LexLeTransitive(x, s[0], s[j]); }
    }
    ConsSorted(x, s);
  }

  /** A string that sorts after the head is inserted into the tail. */
  lemma InsertBehindHead(x: string, s: seq<string>, rest: seq<string>)
    requires Sorted(s) && |s| > 0 && !LexLe(x, s[0])
    requires Sorted(rest) && multiset(rest) == multiset(s[1..]) + multiset{x}
    ensures Sorted([s[0]] + rest)
    ensures multiset([s[0]] + rest) == multiset(s) + multiset{x}
  {
    LexLeTotal(x, s[0]);
    forall j | 0 <= j < |rest| ensures LexLe(s[0], rest[j]) {
      assert rest[j] in multiset(rest);
    }
    ConsSorted(s[0], rest);
    assert s == [s[0]] + s[1..];
  }

  /** A string at or before every element of a sorted list can go in front of it. */
  lemma ConsSorted(y: string, s: seq<string>)
    requires Sorted(s)
    requires forall j :: 0 <= j < |s| ==> LexLe(y, s[j])
    ensures Sorted([y] + s)
  {
    var r := [y] + s;
    forall i, j | 0 <= i < j < |r| ensures LexLe(r[i], r[j]) {
      if i > 0 { assert r[i] == s[i - 1] && r[j] == s[j - 1]; } else { assert r[j] == s[j - 1]; }
    }
  }

  /** The array after `nids.sort()`. */
  function Sort(s: seq<string>): (r: seq<string>)
    ensures Sorted(r)
    ensures multiset(r) == multiset(s)
  {
    if |s| == 0 then []
    else
      assert s == [s[0]] + s[1..];
      Insert(s[0], Sort(s[1..]))
  }

  /** A sorted arrangement of a multiset of strings is unique. */
  lemma {:induction false} SortedUnique(a: seq<string>, b: seq<string>)
    requires Sorted(a) && Sorted(b)
    requires multiset(a) == multiset(b)
    ensures a == b
    decreases |a|
  {
    if |a| > 0 {
      assert |b| > 0 by { assert a[0] in multiset(b); }
      SortedHeadsAgree(a, b);
      TailMultiset(a);
      TailMultiset(b);
      assert Sorted(a[1..]) && Sorted(b[1..]);
      SortedUnique(a[1..], b[1..]);
      assert a == [a[0]] + a[1..] && b == [b[0]] + b[1..];
    } else {
      assert |multiset(b)| == 0;
    }
  }

  /** Two sorted permutations start with the same string. */
  lemma SortedHeadsAgree(a: seq<string>, b: seq<string>)
    requires Sorted(a) && Sorted(b) && |a| > 0 && |b| > 0
    requires multiset(a) == multiset(b)
    ensures a[0] == b[0]
  {
    assert a[0] in multiset(b);
    assert b[0] in multiset(a);
    var i :| 0 <= i < |b| && b[i] == a[0];
    var j :| 0 <= j < |a| && a[j] == b[0];
    LexLeReflexive(a[0]);
    LexLeReflexive(b[0]);
    assert LexLe(b[0], a[0]) by { if i > 0 { assert LexLe(b[0], b[i]); } }
    assert LexLe(a[0], b[0]) by { if j > 0 { assert LexLe(a[0], a[j]); } }
    LexLeAntisymmetric(a[0], b[0]);
  }

  /** Dropping the first element removes one copy of it from the multiset. */
  lemma TailMultiset(a: seq<string>)
    requires |a| > 0
    ensures multiset(a[1..]) == multiset(a) - multiset{a[0]}
  {
    assert a == [a[0]] + a[1..];
    assert multiset(a) == multiset{a[0]} + multiset(a[1..]);
  }

  /** Sorting forgets the input order: permutations sort to the same array. */
  lemma SortIgnoresOrder(a: seq<string>, b: seq<string>)
    requires multiset(a) == multiset(b)
    ensures Sort(a) == Sort(b)
  {
    SortedUnique(Sort(a), Sort(b));
  }
}

=== FILE: wrappers.dfy ===
/** A value that may be missing, and the outcome of a call that may throw, as the models below use them. */
module Wrappers {

  /** A value that may be missing: JavaScript's `null`/`undefined`/`NaN` results. */
  datatype Option<+T> = None | Some(value: T)

  /** The outcome of a computation that may throw. */
  datatype Result<+R, +E> = Success(value: R) | Failure(error: E)
}
